=== FILE: README.md ===
# JackyLibrary persistence core, modelled in Dafny

This project models the small SQLite layer of JackyLibrary, an Android utility library, together with two small state machines that sit next to it:

- **`JackyDao`.** Each dao keeps an insertion-ordered column list. The first registration of a column name wins. The dao validates the arguments of its CRUD methods and answers bad input with the sentinels -1 or 0. It builds `a=? AND b=?` WHERE clauses and a `ContentValues` map for each request.
- **`JackyDBHelper`.** `prepare` works once. The dao registry is a `HashMap` from dao class to dao instance. `onCreate` generates the `CREATE TABLE` text. The default `onUpgrade` drops every table other than `sqlite_sequence` and rebuilds the schema.
- **`StringUtils`.** `isNullOrEmpty`, and the character comparison behind `equals` and `equalsIgnoreCase`.
- **`JackyEntity`.** The `_id` / `updateTime` record.
- **`JackyApplication`.** The started-activity counter that fires the foreground and background notifications. Its `onCreate` registers the required daos, and `onChangeToBackground` may close the database.

Everything is written as immutable datatypes and pure functions. Four loops of the source are methods with loop invariants: the scan of `isStringMatch`, the `CREATE TABLE` builder, the `ContentValues` put loop and the WHERE-clause builder. The other loops are stated directly. The `daoMap` loop of `onCreate` is the map comprehension `JackyDBHelper.OnCreate`. The cursor loop of `onUpgrade` is the set comprehension `JackyDBHelper.DropStatements`. The registration loop of `JackyApplication.onCreate` is the recursive function `JackyApplication.RegisterRequired`. The modules are:

| file | module | models |
|---|---|---|
| `java.dfy` | `Java` | `null` as `Nullable<T>`, Java `int`, `String.length()` in UTF-16 units, and what `StringBuilder.append` writes for a null string |
| `string_utils.dfy` | `StringUtils` | `StringUtils.java` |
| `jacky_entity.dfy` | `JackyEntity` | `JackyEntity.java` |
| `schema.dfy` | `Schema` | `JackyDBHelper.DataType`, `JackyDao.ColumnInfo` with `equals`/`hashCode` |
| `jacky_dao.dfy` | `JackyDao` | the column registry of `JackyDao.java` |
| `create_table.dfy` | `CreateTableSql` | the `CREATE TABLE` text of `onCreate`, and a reader for it |
| `jacky_db_helper.dfy` | `JackyDBHelper` | `prepare`, `getInstance`, the registry, `onCreate`, `onUpgrade` |
| `dao_crud.dfy` | `DaoCrud` | `insertData`, `updateData`, `deleteData`, `deleteAllData` |
| `jacky_application.dfy` | `JackyApplication` | `JackyApplication.java` |

Modelling choices:

- **The database and engine.** The database is the set of its table names. A CRUD operation yields either its sentinel or the `Request` it hands to `getWritableDatabase()`. What the engine answers to that request is not modelled.
- **Executing `CREATE TABLE`.** The engine adds the table named in the statement, as read back by `CreateTableSql.ParseCreateTable`. Every statement declares an `AUTOINCREMENT` key, so SQLite also creates its `sqlite_sequence` table together with the first such table, and the model does the same.
- **Classes and reflection.** A class is represented by its qualified and simple names. `Class.newInstance` is a parameter with three outcomes. It constructs an instance, given by the `addColumnAndType` calls the class's constructor makes. Or it throws `IllegalAccessException` or `InstantiationException`, which `registerDao` catches, leaving the registry unchanged. Or it throws anything else, which escapes `registerDao` and ends the registration loop of `JackyApplication.onCreate`.
- **Abstract symbols.** The code calls three things it does not define here:
  - `StringUtils.isEmpty` is assumed to behave exactly like `isNullOrEmpty`.
  - `JackyDBHelper.UPDATE_TIME` is modelled as `DaoCrud.UPDATE_TIME`, an uninitialised constant.
  - `Character.toUpperCase` is an uninitialised constant, `StringUtils.ToUpperCase`, so every property about case folding holds for any case mapping.
- **Strings.** A Dafny string is a sequence of Unicode characters, while Java's `String` is a sequence of UTF-16 units. `String.length()` is modelled as `Java.Utf16Length`, which counts a character from U+10000 up twice. `isStringMatch` scans units, and `Character.toUpperCase(char)` leaves each half of a surrogate pair unchanged. So in the model such a character matches only itself, and case folding applies to characters below U+10000.
- **The dao instance is shared.** `getDao` returns the instance held in the registry. A column added through it afterwards, as the comments in `JackyDao.java` suggest doing before `prepare`, changes the table `onCreate` builds. `JackyDBHelper.AddColumnToRegistered` models that call.
- **Columns come from `addColumnAndType` only.** `onCreate` reads each dao's columns through `getColumnInfos()`. The model takes them to be exactly the list that `addColumnAndType` built. A dao class that overrides `getColumnInfos()`, or code that edits the list it returns, is not modelled.
- **The update stamp is literal text.** `updateData` puts `(datetime('now','localtime'))` into `ContentValues` as a string value. The model stores that literal, not a time.
- **Reference equality.** `StringUtils.equals` starts with a reference test `s1 == s2`. The model uses value equality there. For non-null strings the method answers true whichever reading is taken, so the result is the same.

Behaviour of the code worth knowing:

- `insertData` accepts two empty arrays and sends an empty insert. Only null arrays and arrays of different lengths are refused.
- `prepare` uses the name as given, or `myDatabase` when it is null or empty. No file-name extension is appended.
- The generated `CREATE TABLE` has the `_id` primary key and the registered columns only. There is no update-timestamp column.
- `onUpgrade` has no post-migration hook.
- `prepare` refuses versions below 1, so version 1 is accepted, although its warning text says the version "must be greater than 1".
- `JackyApplication.onCreate` passes each `Class<? extends JackyDao>` to `registerDao(Class<JackyDao>)`. Java generics are invariant, so as written that call does not type-check. The model registers each class, which is what the code evidently means.

## Model

| member | source | states |
|---|---|---|
| `StringUtils.IsNullOrEmpty` | jackylibrary/src/main/java/com/jackylibrary/StringUtils.java:11-13 | true exactly for null and for the empty string |
| `StringUtils.IsStringMatch` | jackylibrary/src/main/java/com/jackylibrary/StringUtils.java:42-63 | false when the lengths differ; otherwise true exactly when every position is equal, or equal after upper-casing when case is ignored; agrees with the recursive reference `Matches` |
| `StringUtils.MatchSameUtf16Length` | jackylibrary/src/main/java/com/jackylibrary/StringUtils.java:44-46 | strings that match have the same `length()` in UTF-16 units, so Java's length test rejects no pair the scan accepts |
| `StringUtils.MatchesPointwise` | jackylibrary/src/main/java/com/jackylibrary/StringUtils.java:44-62 | the recursive comparison is the same as equal lengths plus a match at every position |
| `StringUtils.CaseSensitiveMatchIsEquality` | jackylibrary/src/main/java/com/jackylibrary/StringUtils.java:47-62 | with `ignoreCase = false` the comparison holds exactly when the two strings are equal |
| `StringUtils.CaseSensitiveImpliesInsensitive` | jackylibrary/src/main/java/com/jackylibrary/StringUtils.java:50-59 | a case-sensitive match is also a case-insensitive match |
| `StringUtils.MatchReflexive` | jackylibrary/src/main/java/com/jackylibrary/StringUtils.java:47-62 | every string matches itself under either flag |
| `StringUtils.MatchSymmetric` | jackylibrary/src/main/java/com/jackylibrary/StringUtils.java:42-63 | swapping the two strings does not change the answer |
| `StringUtils.Equals` | jackylibrary/src/main/java/com/jackylibrary/StringUtils.java:15-23 | as written: true exactly when both arguments are null or both are non-null |
| `StringUtils.EqualsIgnoreCase` | jackylibrary/src/main/java/com/jackylibrary/StringUtils.java:25-33 | as written: true exactly when both arguments are null or both are non-null |
| `StringUtils.EqualsAcceptsDifferentStrings` | jackylibrary/src/main/java/com/jackylibrary/StringUtils.java:15-33 | `equals("a", "b")` and `equalsIgnoreCase("a", "b")` both return true |
| `StringUtils.EqualsIntended` | jackylibrary/src/main/java/com/jackylibrary/StringUtils.java:15-23 | with `s1` compared to `s2`: true exactly when the two nullable strings are equal |
| `StringUtils.EqualsIgnoreCaseIntended` | jackylibrary/src/main/java/com/jackylibrary/StringUtils.java:25-33 | with `s1` compared to `s2`: a case-insensitive match for non-null strings, equality when either is null, and implied by `EqualsIntended` |
| `JackyEntity.NewEntity` | jackylibrary/src/main/java/com/jackylibrary/model/JackyEntity.java:8-11 | a new entity has `_id` 0 and a null `updateTime` |
| `JackyEntity.GetId` | jackylibrary/src/main/java/com/jackylibrary/model/JackyEntity.java:21-23 | returns the `_id` field: the entity is exactly this id together with its update time |
| `JackyEntity.GetUpdateTime` | jackylibrary/src/main/java/com/jackylibrary/model/JackyEntity.java:25-27 | returns the `updateTime` field: the entity is exactly its id together with this update time |
| `JackyEntity.SetId` | jackylibrary/src/main/java/com/jackylibrary/model/JackyEntity.java:13-15 | `get_id()` after `set_id(x)` is `x`, and `getUpdateTime()` is unchanged |
| `JackyEntity.SetUpdateTime` | jackylibrary/src/main/java/com/jackylibrary/model/JackyEntity.java:17-19 | `getUpdateTime()` after `setUpdateTime(s)` is `s`, and `get_id()` is unchanged |
| `JackyEntity.SettersCommuteAndOverride` | jackylibrary/src/main/java/com/jackylibrary/model/JackyEntity.java:13-27 | the setters commute, a later set overrides an earlier one, and setting a field to its current value is the identity |
| `Schema.SqlName` | jackylibrary/src/main/java/com/jackylibrary/JackyDBHelper.java:38-47 | each `DataType` constant carries one of the words `INTEGER`, `REAL` and `TEXT` |
| `Schema.SqlNameInjective` | jackylibrary/src/main/java/com/jackylibrary/JackyDBHelper.java:38-47 | different `DataType` constants carry different SQL type words |
| `Schema.ColumnEquals` | jackylibrary/src/main/java/com/jackylibrary/model/JackyDao.java:210-222 | `equals` is false for null or for a null-named argument; otherwise it compares names only |
| `Schema.ColumnHashCode` | jackylibrary/src/main/java/com/jackylibrary/model/JackyDao.java:225-227 | the hash is -1 exactly for a null name, otherwise the name's `length()` in UTF-16 units, between its character count and twice that |
| `Schema.HashCountsUtf16Units` | jackylibrary/src/main/java/com/jackylibrary/model/JackyDao.java:225-227 | a column named by the single character U+1F600 hashes to 2 |
| `Schema.HashConsistentWithEquals` | jackylibrary/src/main/java/com/jackylibrary/model/JackyDao.java:210-227 | columns that are equal have equal hash codes |
| `Schema.EqualsByNameOnly` | jackylibrary/src/main/java/com/jackylibrary/model/JackyDao.java:210-222 | for non-null names, equality holds exactly when the names agree, whatever the type and nullability, and it is symmetric |
| `Schema.NullNameNotReflexive` | jackylibrary/src/main/java/com/jackylibrary/model/JackyDao.java:218-220 | a column with a null name is not equal to itself |
| `JackyDao.AddColumnAndType` | jackylibrary/src/main/java/com/jackylibrary/model/JackyDao.java:41-52 | a null or empty name, or a name already present, leaves the dao unchanged; otherwise the column is appended at the end; names stay non-empty and pairwise distinct |
| `JackyDao.AddColumnAndTypeNotNull` | jackylibrary/src/main/java/com/jackylibrary/model/JackyDao.java:182-184 | the two-argument overload is the three-argument form with `isAllowNull = false` |
| `JackyDao.SecondRegistrationIgnored` | jackylibrary/src/main/java/com/jackylibrary/model/JackyDao.java:46-50 | adding a name a second time, with any type and nullability, changes nothing |
| `JackyDao.AddAll` | jackylibrary/src/main/java/com/jackylibrary/model/JackyDao.java:41-52 | a sequence of additions keeps the earlier columns as an untouched prefix and keeps names distinct |
| `JackyDao.FirstRegistrationWins` | jackylibrary/src/main/java/com/jackylibrary/model/JackyDao.java:41-52 | after any sequence of additions, the column named `n` is the one already present, or else the one built from the first request for `n` |
| `JackyDao.AddAllNames` | jackylibrary/src/main/java/com/jackylibrary/model/JackyDao.java:41-52 | a non-empty name ends up in the list exactly when it was there or some call asked for it |
| `CreateTableSql.BuildCreateTable` | jackylibrary/src/main/java/com/jackylibrary/JackyDBHelper.java:144-154 | the builder loop produces `CREATE TABLE <name> (_id INTEGER PRIMARY KEY AUTOINCREMENT`, then `, <col> <TYPE>` per column in order, followed by the text ` NOT<U+3000>NULL` when `isAllowNull` is false, then `)` |
| `CreateTableSql.ParseColumnsRoundTrip` | jackylibrary/src/main/java/com/jackylibrary/JackyDBHelper.java:147-153 | reading the column clauses back yields the column list, with each type and nullability, in order |
| `CreateTableSql.CreateTableRoundTrip` | jackylibrary/src/main/java/com/jackylibrary/JackyDBHelper.java:144-154 | for identifier names, reading the statement back yields exactly the table name and the column list |
| `CreateTableSql.CreateTableInjective` | jackylibrary/src/main/java/com/jackylibrary/JackyDBHelper.java:144-154 | two statements are equal exactly when their table names and column lists are equal |
| `JackyDBHelper.NormalizeName` | jackylibrary/src/main/java/com/jackylibrary/JackyDBHelper.java:78-80 | a null or empty name becomes `myDatabase`; any other name is kept; the result is never empty |
| `JackyDBHelper.Prepare` | jackylibrary/src/main/java/com/jackylibrary/JackyDBHelper.java:62-84 | when already prepared, nothing changes; otherwise the helper becomes prepared exactly when the context is non-null and the version is at least 1, with that context, version and normalised name |
| `JackyDBHelper.GetInstance` | jackylibrary/src/main/java/com/jackylibrary/JackyDBHelper.java:91-97 | null exactly while unprepared, the created instance afterwards |
| `JackyDBHelper.PrepareRejects` | jackylibrary/src/main/java/com/jackylibrary/JackyDBHelper.java:70-77 | a null context or a version below 1 leaves the helper unprepared, and `getInstance` still returns null |
| `JackyDBHelper.PrepareIdempotent` | jackylibrary/src/main/java/com/jackylibrary/JackyDBHelper.java:63-69 | once a `prepare` has succeeded, a later one changes neither the helper nor `getInstance`, whatever its arguments |
| `JackyDBHelper.PreparedIsFinal` | jackylibrary/src/main/java/com/jackylibrary/JackyDBHelper.java:63-69 | no sequence of `prepare` calls changes a prepared helper |
| `JackyDBHelper.FirstAcceptedPrepareWins` | jackylibrary/src/main/java/com/jackylibrary/JackyDBHelper.java:62-84 | after any sequence of `prepare` calls, the configuration is the one from the first call with a non-null context and a version of at least 1, or the helper is still unprepared |
| `JackyDBHelper.RegisterDao` | jackylibrary/src/main/java/com/jackylibrary/JackyDBHelper.java:105-126 | the class is added exactly when it is non-null and instantiation succeeds, and not instantiated again when already registered; an exception escapes exactly for a new class whose instantiation throws something other than the two caught exceptions; existing entries never change; the registry stays well formed, with the new dao holding the columns its constructor added (daos that override `getColumnInfos()` are not modelled) |
| `JackyDBHelper.GetDao` | jackylibrary/src/main/java/com/jackylibrary/JackyDBHelper.java:128-130 | returns the stored instance, or null for a null or unregistered class |
| `JackyDBHelper.AddColumnToRegistered` | jackylibrary/src/main/java/com/jackylibrary/JackyDBHelper.java:128-130 | `getDao(cls).addColumnAndType(...)` changes only the entry of `cls`, which becomes `addColumnAndType` applied to the stored dao; the keys and every other entry are kept, and the registry stays well formed |
| `JackyDBHelper.LateColumnReachesCreateTable` | jackylibrary/src/main/java/com/jackylibrary/model/JackyDao.java:33-52 | a new column added through `getDao` before `onCreate` appears last in that dao's `CREATE TABLE` statement, and no other statement changes, for a dao that does not override `getColumnInfos()` |
| `JackyDBHelper.RegisterDaoIdempotent` | jackylibrary/src/main/java/com/jackylibrary/JackyDBHelper.java:110-113 | registering a class twice equals registering it once, and the second call throws nothing once the first succeeded; `getDao` returns the first stored instance |
| `JackyDBHelper.OnCreate` | jackylibrary/src/main/java/com/jackylibrary/JackyDBHelper.java:138-158 | the daos that get a statement are exactly the registered ones with a non-empty column list, so a dao without columns gets none; each statement opens with `CREATE TABLE`, the class's simple name and the primary-key column |
| `JackyDBHelper.OnCreateReadsBack` | jackylibrary/src/main/java/com/jackylibrary/JackyDBHelper.java:139-157 | every dao with columns gets a statement, and that statement reads back as the dao's table name and its columns in order |
| `JackyDBHelper.OnCreateDistinctStatements` | jackylibrary/src/main/java/com/jackylibrary/JackyDBHelper.java:139-157 | daos with different simple names get different statements, so each table is created by exactly one statement |
| `JackyDBHelper.ExecuteCreateTables` | jackylibrary/src/main/java/com/jackylibrary/JackyDBHelper.java:139-157 | running `onCreate` adds exactly the simple names of the daos that have columns, plus `sqlite_sequence` when at least one table is created |
| `JackyDBHelper.ListedTables` | jackylibrary/src/main/java/com/jackylibrary/JackyDBHelper.java:176-177 | the catalogue query lists every table except `sqlite_sequence` |
| `JackyDBHelper.ExecuteDrops` | jackylibrary/src/main/java/com/jackylibrary/JackyDBHelper.java:178-183 | after the drops, only `sqlite_sequence` can remain, and it remains exactly when it was there |
| `JackyDBHelper.SequenceTableNotDropped` | jackylibrary/src/main/java/com/jackylibrary/JackyDBHelper.java:176-181 | no drop statement names `sqlite_sequence` |
| `JackyDBHelper.DropStatements` | jackylibrary/src/main/java/com/jackylibrary/JackyDBHelper.java:178-181 | there is a `DROP TABLE <t>` for every listed table `t`, and every statement starts with `DROP TABLE ` |
| `JackyDBHelper.DropStatementsNameListedTables` | jackylibrary/src/main/java/com/jackylibrary/JackyDBHelper.java:178-181 | a statement is among the drops exactly when it is `DROP TABLE ` followed by a listed table |
| `JackyDBHelper.OnUpgrade` | jackylibrary/src/main/java/com/jackylibrary/JackyDBHelper.java:171-188 | with a listener it only delegates, passing both versions; without one it drops every table except `sqlite_sequence` and re-runs `onCreate` |
| `JackyDBHelper.DefaultUpgradeRebuilds` | jackylibrary/src/main/java/com/jackylibrary/JackyDBHelper.java:174-187 | after the default upgrade the tables are `sqlite_sequence` if it was present, the daos' tables, and `sqlite_sequence` again if some dao has columns; every other earlier table was dropped |
| `JackyDBHelper.DefaultUpgradeSequenceTable` | jackylibrary/src/main/java/com/jackylibrary/JackyDBHelper.java:174-187 | after the default upgrade `sqlite_sequence` exists exactly when it existed before or some dao has columns, since it is never dropped and each created table has an `AUTOINCREMENT` key |
| `DaoCrud.PutAll` | jackylibrary/src/main/java/com/jackylibrary/model/JackyDao.java:73-76 | the put loop: the keys are the old keys plus the names, each name holds the value at its last occurrence, and other keys keep their values |
| `DaoCrud.BuildWhere` | jackylibrary/src/main/java/com/jackylibrary/model/JackyDao.java:114-121 | the builder loop yields the search names, each followed by `=?`, joined with ` AND ` |
| `DaoCrud.WhereClauseSnoc` | jackylibrary/src/main/java/com/jackylibrary/model/JackyDao.java:117-121 | one more search column appends ` AND <name>=?` at the end, so the terms follow the given order |
| `DaoCrud.WherePlaceholderCount` | jackylibrary/src/main/java/com/jackylibrary/model/JackyDao.java:114-121 | the clause has exactly one `?` per search column when no name contains `?` |
| `DaoCrud.InsertData` | jackylibrary/src/main/java/com/jackylibrary/model/JackyDao.java:63-78 | -1 exactly for a null array, arrays of different lengths or an unprepared helper, with empty arrays accepted; otherwise an insert into the dao's table of the column/value pairs, last value winning |
| `DaoCrud.UpdateData` | jackylibrary/src/main/java/com/jackylibrary/model/JackyDao.java:95-123 | 0 exactly for a null, mismatched or empty search or update pair, or an unprepared helper; otherwise an update whose values hold `UPDATE_TIME` and the update columns, later keys overriding, with the equality WHERE clause and the search values as arguments |
| `DaoCrud.DeleteData` | jackylibrary/src/main/java/com/jackylibrary/model/JackyDao.java:138-157 | 0 exactly for a null, mismatched or empty search pair, or an unprepared helper; otherwise a delete with the equality WHERE clause and the search values |
| `DaoCrud.DeleteAllData` | jackylibrary/src/main/java/com/jackylibrary/model/JackyDao.java:165-172 | 0 exactly when unprepared; otherwise a delete with WHERE `1` and no arguments |
| `JackyApplication.Step` | jackylibrary/src/main/java/com/jackylibrary/model/JackyApplication.java:35-75 | a start adds 1 and fires foreground exactly on reaching 1; a stop subtracts 1, with no guard, and fires background exactly on reaching 0; the other callbacks change nothing |
| `JackyApplication.RunCount` | jackylibrary/src/main/java/com/jackylibrary/model/JackyApplication.java:42-62 | after any callbacks the counter is the start value plus starts minus stops |
| `JackyApplication.NoticesAlternateFrom` | jackylibrary/src/main/java/com/jackylibrary/model/JackyApplication.java:40-65 | from a non-negative count, while stops never outnumber starts, notices alternate, and the first is foreground exactly when the count was 0 |
| `JackyApplication.ForegroundBackgroundAlternate` | jackylibrary/src/main/java/com/jackylibrary/model/JackyApplication.java:21-65 | from the initial count 0, while stops never outnumber starts in any prefix, foreground and background notices alternate, starting with foreground |
| `JackyApplication.RegisterRequired` | jackylibrary/src/main/java/com/jackylibrary/model/JackyApplication.java:27-32 | for a null list nothing happens; otherwise the elements are registered in order, null elements skipped, until the first class whose instantiation throws an uncaught exception, which ends the loop: the new keys are the constructed classes before that point, each stored with the dao its constructor built; the result says whether an exception escaped, and existing entries are kept |
| `JackyApplication.NullElementSkipped` | jackylibrary/src/main/java/com/jackylibrary/JackyDBHelper.java:105-109 | a null element of the required list is skipped and the loop continues as if it were absent |
| `JackyApplication.RequiredDaoReachesCreateTable` | jackylibrary/src/main/java/com/jackylibrary/model/JackyApplication.java:27-32 | a class the loop newly registers, with columns, gets from `onCreate` the `CREATE TABLE` statement built from the columns its constructor added, for a dao that does not override `getColumnInfos()` |
| `JackyApplication.EscapeStopsRegistration` | jackylibrary/src/main/java/com/jackylibrary/model/JackyApplication.java:27-32 | when the first of two new classes throws an uncaught exception, the exception escapes and the second class is not registered |
| `JackyApplication.DefaultRequiredDaoClasses` | jackylibrary/src/main/java/com/jackylibrary/model/JackyApplication.java:107-109 | the base class returns a null list |
| `JackyApplication.DefaultOnCreateRegistersNothing` | jackylibrary/src/main/java/com/jackylibrary/model/JackyApplication.java:107-109 | with the default `getRequiredDaoClasses()` the registry is unchanged and nothing escapes |
| `JackyApplication.OnChangeToBackground` | jackylibrary/src/main/java/com/jackylibrary/model/JackyApplication.java:93-100 | flushes the log first, and closes the database exactly when `getInstance()` is non-null |

## Left out

- Logging (`LogUtils`) is a no-op. `LogUtils.prepare` in `JackyApplication.onCreate` is left out. `LogUtils.flushLog` is only recorded as an effect of `onChangeToBackground`.
- `closeDBIfExist` and the listener's own `onUpgrade` are not defined in the code. They appear only as effect tags and are not interpreted.
- The SQLite engine is abstract. The row effects of insert, update and delete and the `sqlite_master` catalogue are not modelled. The catalogue query is taken to list exactly the tables of the modelled database, so its `cursor != null` check is always true.
- A failing `execSQL` is not modelled. The model does not raise for a duplicate table name or a reserved table name such as `sqlite_sequence`.
- `synchronized` and the double-checked locking in `prepare` and `addColumnAndType` are modelled as sequential calls.
- Reflection is represented by class names. `getSimpleName` is a field of the class value, and `newInstance` is a parameter.
- Elements of the `String[]` arguments of the CRUD methods are non-null strings. A null element is not modelled.
- A null `DataType` passed to `addColumnAndType` is not modelled. It would only fail later, in `onCreate`.
- `StringUtils.IsStringMatch`: the scan runs over characters, not UTF-16 units. It agrees with Java's scan when `Character.toUpperCase` maps no character below U+10000 to a surrogate half, which Unicode's case tables guarantee but the model does not state.
- `JackyDBHelper.RegisterDao`: the stored dao's columns are those its constructor's `addColumnAndType` calls built. A dao class that overrides the public, non-final `getColumnInfos()` is not modelled, so the registry's well-formedness holds only for daos that do not override it. Supporting that would mean giving each dao a second column source and reworking every `onCreate` lemma over it.
- `JackyDBHelper.LateColumnReachesCreateTable`: assumes the dao does not override `getColumnInfos()` and no caller edits the list it returns. Otherwise `onCreate` reads other columns, possibly unchecked for empty or duplicate names.
- `JackyApplication.RequiredDaoReachesCreateTable`: the same assumption; for a dao class that overrides `getColumnInfos()`, the statement is built from what the override returns, not from the constructor's columns.
- The ` NOT<U+3000>NULL` text is modelled as text only. Whether SQLite reads it as a NOT NULL constraint is not modelled. SQLite's tokenizer counts characters above U+007F as identifier characters, so it likely becomes part of the type name.
- `JackyApplication.Step`: the activity counter is an unbounded integer. Java's 32-bit wrap-around is not modelled, because it would take 2^31 started activities.
- `CreateTableSql.CreateTableRoundTrip`: the round trip is stated only for table and column names made of letters, digits and `_`. A name containing spaces, commas or parentheses can make the text ambiguous.
- `DaoCrud.WherePlaceholderCount`: the count is stated only for column names without `?`.
- The lemmas about `onCreate` and the default upgrade assume identifier-shaped simple names and column names. The distinct-statements part also assumes distinct simple names, which a comment in `JackyDao.java` asks of developers.

## Findings

| source | as written | input that shows it | evidently intended | confidence | as-written member | corrected member |
|---|---|---|---|---|---|---|
| jackylibrary/src/main/java/com/jackylibrary/StringUtils.java:19 | `equals` calls `isStringMatch(false, s2, s2)`, comparing `s2` with itself | `equals("a", "b")` returns true | `isStringMatch(false, s1, s2)`, which is true exactly when the strings are equal | high (not executed) | `StringUtils.EqualsAcceptsDifferentStrings` | `StringUtils.EqualsIntended` |
| jackylibrary/src/main/java/com/jackylibrary/StringUtils.java:29 | `equalsIgnoreCase` calls `isStringMatch(true, s2, s2)`, comparing `s2` with itself | `equalsIgnoreCase("a", "b")` returns true | `isStringMatch(true, s1, s2)`, a case-insensitive match | high (not executed) | `StringUtils.EqualsAcceptsDifferentStrings` | `StringUtils.EqualsIgnoreCaseIntended` |

=== FILE: create_table.dfy ===
/** The `CREATE TABLE` text that `JackyDBHelper.onCreate` builds for one dao,
    a reader for that text, and the proof that the reader recovers the table
    name and every column (name, type, nullability) in order. */
module CreateTableSql {
  import opened Java
  import opened Schema

  /** `JackyDBHelper.KEY_ID`, the reserved primary-key column. */
  const KEY_ID: string := "_id"

  /** The text the source appends to the clause of a column whose
      `isAllowNull` is false: the words NOT and NULL joined by a full-width
      space (U+3000), kept here as written. */
  const NOT_NULL_SUFFIX: string := " NOT\U{3000}NULL"

  const CREATE_TABLE_HEAD: string := "CREATE TABLE "

  /** What follows the table name: the opening parenthesis and the
      primary-key column. */
  const PRIMARY_KEY_PART: string := " (" + KEY_ID + " INTEGER PRIMARY KEY AUTOINCREMENT"

  /** `, <name> <TYPE>`, followed by `NOT_NULL_SUFFIX` when `isAllowNull` is false. */
  function ColumnClause(c: ColumnInfo): string
  {
    ", " + AppendText(c.columnName) + " " + SqlName(c.dataType) + (if c.isAllowNull then "" else NOT_NULL_SUFFIX)
  }

  /** The clauses of all columns, in list order. */
  function ColumnClauses(cols: seq<ColumnInfo>): string
    decreases |cols|
  {
    if cols == [] then "" else ColumnClause(cols[0]) + ColumnClauses(cols[1..])
  }

  /** The whole statement for table `table` with columns `cols`. */
  function CreateTable(table: string, cols: seq<ColumnInfo>): string
  {
    CREATE_TABLE_HEAD + table + PRIMARY_KEY_PART + ColumnClauses(cols) + ")"
  }

  lemma {:induction false} ColumnClausesSnoc(cols: seq<ColumnInfo>, c: ColumnInfo)
    ensures ColumnClauses(cols + [c]) == ColumnClauses(cols) + ColumnClause(c)
    decreases |cols|
  {
    if cols == [] {
      assert [c][1..] == [];
    } else {
      assert (cols + [c])[1..] == cols[1..] + [c];
      ColumnClausesSnoc(cols[1..], c);
    }
  }

  lemma ClausesOfLongerPrefix(head: string, cols: seq<ColumnInfo>, i: nat)
    requires i < |cols|
    ensures head + ColumnClauses(cols[..i]) + ColumnClause(cols[i]) == head + ColumnClauses(cols[..i + 1])
  {
    ColumnClausesSnoc(cols[..i], cols[i]);
    assert cols[..i + 1] == cols[..i] + [cols[i]];
  }

  /** The `StringBuilder` loop of `onCreate` for one dao: it produces the
      statement `CreateTable` describes. */
  method BuildCreateTable(table: string, cols: seq<ColumnInfo>) returns (sql: string)
    ensures sql == CreateTable(table, cols)
  {
    var head := CREATE_TABLE_HEAD + table + PRIMARY_KEY_PART;
    var sb := head;
    var i := 0;
    while i < |cols|
      invariant 0 <= i <= |cols|
      invariant sb == head + ColumnClauses(cols[..i])
    {
      var c := cols[i];
      var clause := ColumnClause(c);
      ClausesOfLongerPrefix(head, cols, i);
      sb := sb + clause;
      i := i + 1;
    }
    assert cols[..i] == cols;
    sql := sb + ")";
  }

  // ---------------------------------------------------------------------------
  // Reading the statement back

  /** Characters of a plain SQL identifier. */
  predicate IsIdentChar(c: char)
  {
    ('a' <= c <= 'z') || ('A' <= c <= 'Z') || ('0' <= c <= '9') || c == '_'
  }

  /** A non-empty run of identifier characters. */
  predicate IsIdentifier(s: string)
  {
    |s| > 0 && forall i :: 0 <= i < |s| ==> IsIdentChar(s[i])
  }

  /** Every column carries a plain identifier as its name. */
  predicate IdentifierColumns(cols: seq<ColumnInfo>)
  {
    forall i :: 0 <= i < |cols| ==> cols[i].columnName.Ref? && IsIdentifier(cols[i].columnName.value)
  }

  /** Splits off the longest prefix of identifier characters. */
  function SplitIdent(s: string): (r: (string, string))
    ensures r.0 + r.1 == s
    ensures forall i :: 0 <= i < |r.0| ==> IsIdentChar(r.0[i])
    ensures r.1 == [] || !IsIdentChar(r.1[0])
    decreases |s|
  {
    if s == [] || !IsIdentChar(s[0]) then ([], s)
    else
      var r := SplitIdent(s[1..]);
      var head := [s[0]] + r.0;
      assert head + r.1 == s by { assert [s[0]] + s[1..] == s; }
      assert forall i :: 0 <= i < |head| ==> head[i] == if i == 0 then s[0] else r.0[i - 1];
      (head, r.1)
  }

  /** The split is the only one with those two properties. */
  lemma {:induction false} SplitIdentUnique(x: string, y: string)
    requires forall i :: 0 <= i < |x| ==> IsIdentChar(x[i])
    requires y == [] || !IsIdentChar(y[0])
    ensures SplitIdent(x + y) == (x, y)
    decreases |x|
  {
    if x == [] {
      assert x + y == y;
    } else {
      assert (x + y)[0] == x[0];
      assert (x + y)[1..] == x[1..] + y;
      SplitIdentUnique(x[1..], y);
      assert [x[0]] + x[1..] == x;
    }
  }

  /** Reads one `, <name> <TYPE>` clause, with or without `NOT_NULL_SUFFIX`,
      and returns the text after it. */
  function ParseClause(s: string): (r: Nullable<(ColumnInfo, string)>)
    ensures r.Ref? ==> |r.value.1| < |s|
  {
    if !(", " <= s) then Null
    else
      var (name, r1) := SplitIdent(s[2..]);
      if name == [] || !(" " <= r1) then Null
      else
        var (word, r2) := SplitIdent(r1[1..]);
        match DataTypeOf(word)
        case Null => Null
        case Ref(t) =>
          if NOT_NULL_SUFFIX <= r2 then Ref((ColumnInfo(Ref(name), t, false), r2[|NOT_NULL_SUFFIX|..]))
          else Ref((ColumnInfo(Ref(name), t, true), r2))
  }

  /** Reads clauses up to the closing `)`, which must end the text. */
  function ParseColumns(s: string): Nullable<seq<ColumnInfo>>
    decreases |s|
  {
    if s == ")" then Ref([])
    else
      match ParseClause(s)
      case Null => Null
      case Ref((c, rest)) =>
        match ParseColumns(rest)
        case Null => Null
        case Ref(cols) => Ref([c] + cols)
  }

  /** Reads a whole statement back into its table name and columns. */
  function ParseCreateTable(s: string): Nullable<(string, seq<ColumnInfo>)>
  {
    if !(CREATE_TABLE_HEAD <= s) then Null
    else
      var (table, r1) := SplitIdent(s[|CREATE_TABLE_HEAD|..]);
      if table == [] || !(PRIMARY_KEY_PART <= r1) then Null
      else
        match ParseColumns(r1[|PRIMARY_KEY_PART|..])
        case Null => Null
        case Ref(cols) => Ref((table, cols))
  }

  /** Text that may follow a clause: the next clause or the closing parenthesis. */
  predicate ClauseBoundary(tail: string)
  {
    tail == [] || tail[0] == ',' || tail[0] == ')'
  }

  lemma ClausesThenClose(cols: seq<ColumnInfo>)
    ensures ClauseBoundary(ColumnClauses(cols) + ")")
  {
    if cols != [] {
      assert (ColumnClauses(cols) + ")")[0] == ColumnClause(cols[0])[0] == ',';
    }
  }

  /** Every type word is an identifier. */
  lemma SqlNameIsIdentifier(t: DataType)
    ensures IsIdentifier(SqlName(t))
  {
    var w := SqlName(t);
    assert forall i :: 0 <= i < |w| ==> 'A' <= w[i] <= 'Z';
  }

  /** The two identifier splits the reader makes on a laid-out clause. */
  lemma ClauseSplits(name: string, word: string, r2: string)
    requires IsIdentifier(name) && IsIdentifier(word)
    requires r2 == [] || !IsIdentChar(r2[0])
    ensures ", " <= ", " + (name + (" " + (word + r2)))
    ensures (", " + (name + (" " + (word + r2))))[2..] == name + (" " + (word + r2))
    ensures SplitIdent(name + (" " + (word + r2))) == (name, " " + (word + r2))
    ensures SplitIdent((" " + (word + r2))[1..]) == (word, r2)
  {
    var r1 := " " + (word + r2);
    SplitIdentUnique(name, r1);
    assert r1[1..] == word + r2;
    SplitIdentUnique(word, r2);
  }

  /** The reader on a clause laid out piece by piece: an identifier, a type
      word and the text after the word. */
  lemma ParseClauseOfParts(name: string, t: DataType, r2: string)
    requires IsIdentifier(name)
    requires r2 == [] || !IsIdentChar(r2[0])
    ensures ParseClause(", " + (name + (" " + (SqlName(t) + r2)))) ==
            if NOT_NULL_SUFFIX <= r2 then Ref((ColumnInfo(Ref(name), t, false), r2[|NOT_NULL_SUFFIX|..]))
            else Ref((ColumnInfo(Ref(name), t, true), r2))
  {
    SqlNameIsIdentifier(t);
    ClauseSplits(name, SqlName(t), r2);
    assert DataTypeOf(SqlName(t)) == Ref(t);
  }

  /** The text after the type word of a clause followed by `tail`. */
  lemma ClauseLayout(c: ColumnInfo, tail: string)
    requires c.columnName.Ref?
    ensures ColumnClause(c) + tail ==
            ", " + (c.columnName.value + (" " + (SqlName(c.dataType) + ((if c.isAllowNull then "" else NOT_NULL_SUFFIX) + tail))))
  {
  }

  /** The reader recovers a single clause and stops right after it. */
  lemma ParseClauseRoundTrip(c: ColumnInfo, tail: string)
    requires c.columnName.Ref? && IsIdentifier(c.columnName.value)
    requires ClauseBoundary(tail)
    ensures ParseClause(ColumnClause(c) + tail) == Ref((c, tail))
  {
    var suffix := if c.isAllowNull then "" else NOT_NULL_SUFFIX;
    var r2 := suffix + tail;
    ClauseLayout(c, tail);
    if c.isAllowNull {
      assert r2 == tail;
      assert !(NOT_NULL_SUFFIX <= r2);
    } else {
      assert r2[0] == ' ';
      assert r2[|NOT_NULL_SUFFIX|..] == tail;
    }
    ParseClauseOfParts(c.columnName.value, c.dataType, r2);
  }

  /** The first column of an identifier-named list is identifier-named, and so
      is the rest of the list. */
  lemma IdentifierColumnsCons(cols: seq<ColumnInfo>)
    requires IdentifierColumns(cols) && cols != []
    ensures cols[0].columnName.Ref? && IsIdentifier(cols[0].columnName.value)
    ensures IdentifierColumns(cols[1..])
  {
    forall i | 0 <= i < |cols[1..]|
      ensures cols[1..][i].columnName.Ref? && IsIdentifier(cols[1..][i].columnName.value)
    {
      assert cols[1..][i] == cols[i + 1];
    }
  }

  /** The clause text of a non-empty list splits after its first clause, and
      is not the bare closing parenthesis. */
  lemma ClausesCons(cols: seq<ColumnInfo>)
    requires cols != []
    ensures ColumnClauses(cols) + ")" == ColumnClause(cols[0]) + (ColumnClauses(cols[1..]) + ")")
    ensures ColumnClauses(cols) + ")" != ")"
  {
    var first := ColumnClause(cols[0]);
    assert first[..2] == ", ";
    assert (ColumnClauses(cols) + ")")[0] == ',';
  }

  /** One step of the list reader: a clause followed by readable columns. */
  lemma ParseColumnsStep(s: string, c: ColumnInfo, tail: string, cols: seq<ColumnInfo>)
    requires s != ")" && ParseClause(s) == Ref((c, tail))
    requires ParseColumns(tail) == Ref(cols)
    ensures ParseColumns(s) == Ref([c] + cols)
  {
  }

  /** The column clauses, followed by the closing parenthesis, read back as
      the column list. */
  lemma {:induction false} ParseColumnsRoundTrip(cols: seq<ColumnInfo>)
    requires IdentifierColumns(cols)
    ensures ParseColumns(ColumnClauses(cols) + ")") == Ref(cols)
    decreases |cols|
  {
    if cols == [] {
      assert ColumnClauses(cols) + ")" == ")";
    } else {
      var tail := ColumnClauses(cols[1..]) + ")";
      IdentifierColumnsCons(cols);
      ParseColumnsRoundTrip(cols[1..]);
      ClausesThenClose(cols[1..]);
      ParseClauseRoundTrip(cols[0], tail);
      ClausesCons(cols);
      ParseColumnsStep(ColumnClauses(cols) + ")", cols[0], tail, cols[1..]);
      assert [cols[0]] + cols[1..] == cols;
    }
  }

  /** Round trip: the statement names the table and lists every column, with
      its type and nullability, in order, and nothing else. */
  lemma CreateTableRoundTrip(table: string, cols: seq<ColumnInfo>)
    requires IsIdentifier(table)
    requires IdentifierColumns(cols)
    ensures ParseCreateTable(CreateTable(table, cols)) == Ref((table, cols))
  {
    var rest := ColumnClauses(cols) + ")";
    var afterName := PRIMARY_KEY_PART + rest;
    var afterHead := table + afterName;
    var s := CREATE_TABLE_HEAD + afterHead;
    Concat4(CREATE_TABLE_HEAD, table, PRIMARY_KEY_PART, rest);
    assert CreateTable(table, cols) == s;
    assert s[|CREATE_TABLE_HEAD|..] == afterHead;
    assert afterName[0] == ' ';
    SplitIdentUnique(table, afterName);
    assert afterName[|PRIMARY_KEY_PART|..] == rest;
    ParseColumnsRoundTrip(cols);
  }

  lemma Concat4(a: string, b: string, c: string, d: string)
    ensures a + b + c + d == a + (b + (c + d))
  {
  }

  /** Two daos with different identifier table names, or with different column
      lists, never yield the same statement. */
  lemma CreateTableInjective(t1: string, cols1: seq<ColumnInfo>, t2: string, cols2: seq<ColumnInfo>)
    requires IsIdentifier(t1) && IdentifierColumns(cols1)
    requires IsIdentifier(t2) && IdentifierColumns(cols2)
    ensures CreateTable(t1, cols1) == CreateTable(t2, cols2) <==> t1 == t2 && cols1 == cols2
  {
    CreateTableRoundTrip(t1, cols1);
    CreateTableRoundTrip(t2, cols2);
  }
}

=== FILE: dao_crud.dfy ===
/** The CRUD half of `JackyDao`: argument validation with the sentinels -1 and
    0, the `ContentValues` map, and the equality-conjunction WHERE clause. The
    engine is left abstract: each operation yields either its sentinel or the
    request it hands to `getWritableDatabase()`, whose answer it returns. */
module DaoCrud {
  import opened Java
  import opened JackyDao
  import JackyDBHelper

  /** `JackyDBHelper.UPDATE_TIME` is not part of this model: the column name is
      left abstract. */
  const UPDATE_TIME: string

  /** The text `updateData` stores in the update-time column. It is bound as a
      plain string value, not evaluated as SQL. */
  const NOW_LITERAL: string := "(datetime('now','localtime'))"

  /** The WHERE clause of `deleteAllData`, true of every row. */
  const ALL_ROWS: string := "1"

  const AND: string := " AND "

  const PLACEHOLDER: string := "=?"

  /** `ContentValues`: a map from column name to value; `put` overrides. */
  type ContentValues = map<string, string>

  /** A request to the engine's `insert`, `update` or `delete`. */
  datatype Request =
    | Insert(table: string, values: ContentValues)
    | Update(table: string, values: ContentValues, whereClause: string, whereArgs: Nullable<seq<string>>)
    | Delete(table: string, whereClause: string, whereArgs: Nullable<seq<string>>)

  /** A CRUD call either answers with its sentinel at once or sends a request. */
  datatype Outcome = Rejected(sentinel: int) | Sent(request: Request)

  /** Position `i` holds the last occurrence of its name. */
  predicate LastOccurrence(names: seq<string>, i: int)
    requires 0 <= i < |names|
  {
    forall j :: i < j < |names| ==> names[j] != names[i]
  }

  /** The names of a column array, as a set. */
  function NameSet(names: seq<string>): set<string>
  {
    set n | n in names
  }

  // ---------------------------------------------------------------------------
  // ContentValues

  /** The `cv.put(names[i], values[i])` loop: every name gets the value at its
      last occurrence, and keys not named keep their value. */
  method PutAll(cv: ContentValues, names: seq<string>, values: seq<string>) returns (r: ContentValues)
    requires |names| == |values|
    ensures r.Keys == cv.Keys + NameSet(names)
    ensures forall k :: k in cv && k !in names ==> r[k] == cv[k]
    ensures forall i :: 0 <= i < |names| && LastOccurrence(names, i) ==> r[names[i]] == values[i]
  {
    r := cv;
    var i := 0;
    while i < |names|
      invariant 0 <= i <= |names|
      invariant r.Keys == cv.Keys + NameSet(names[..i])
      invariant forall k :: k in cv && k !in names[..i] ==> r[k] == cv[k]
      invariant forall j :: 0 <= j < i && (forall m :: j < m < i ==> names[m] != names[j]) ==> r[names[j]] == values[j]
    {
      r := r[names[i] := values[i]];
      assert names[..i + 1] == names[..i] + [names[i]];
      i := i + 1;
    }
    assert names[..i] == names;
  }

  // ---------------------------------------------------------------------------
  // WHERE clauses

  /** The terms joined with a separator, left to right. */
  function Join(terms: seq<string>, sep: string): string
    requires |terms| > 0
    decreases |terms|
  {
    if |terms| == 1 then terms[0] else terms[0] + sep + Join(terms[1..], sep)
  }

  /** `name=?` for each search column. */
  function WhereTerms(names: seq<string>): (r: seq<string>)
    ensures |r| == |names|
    ensures forall i :: 0 <= i < |names| ==> r[i] == names[i] + PLACEHOLDER
  {
    seq(|names|, i requires 0 <= i < |names| => names[i] + PLACEHOLDER)
  }

  /** The WHERE clause for the given search columns: `a=? AND b=? AND ...`. */
  function WhereClause(names: seq<string>): string
    requires |names| > 0
  {
    Join(WhereTerms(names), AND)
  }

  lemma {:induction false} JoinSnoc(terms: seq<string>, t: string, sep: string)
    requires |terms| > 0
    ensures Join(terms + [t], sep) == Join(terms, sep) + sep + t
    decreases |terms|
  {
    if |terms| == 1 {
      assert (terms + [t])[1..] == [t];
    } else {
      assert (terms + [t])[1..] == terms[1..] + [t];
      JoinSnoc(terms[1..], t, sep);
    }
  }

  lemma WhereClauseSnoc(names: seq<string>, i: nat)
    requires 0 < i < |names|
    ensures WhereClause(names[..i + 1]) == WhereClause(names[..i]) + AND + names[i] + PLACEHOLDER
  {
    assert WhereTerms(names[..i + 1]) == WhereTerms(names[..i]) + [names[i] + PLACEHOLDER];
    JoinSnoc(WhereTerms(names[..i]), names[i] + PLACEHOLDER, AND);
  }

  /** The `StringBuilder` loop that builds the WHERE clause. */
  method BuildWhere(names: seq<string>) returns (w: string)
    requires |names| > 0
    ensures w == WhereClause(names)
  {
    w := names[0] + PLACEHOLDER;
    assert WhereTerms(names[..1]) == [names[0] + PLACEHOLDER];
    var i := 1;
    while i < |names|
      invariant 1 <= i <= |names|
      invariant w == WhereClause(names[..i])
    {
      WhereClauseSnoc(names, i);
      w := w + AND + names[i] + PLACEHOLDER;
      i := i + 1;
    }
    assert names[..i] == names;
  }

  /** Occurrences of `c` in `s`. */
  function Count(s: string, c: char): nat
    decreases |s|
  {
    if s == [] then 0 else (if s[0] == c then 1 else 0) + Count(s[1..], c)
  }

  lemma {:induction false} CountConcat(a: string, b: string, c: char)
    ensures Count(a + b, c) == Count(a, c) + Count(b, c)
    decreases |a|
  {
    if a == [] {
      assert a + b == b;
    } else {
      assert (a + b)[1..] == a[1..] + b;
      CountConcat(a[1..], b, c);
    }
  }

  lemma {:induction false} CountJoin(terms: seq<string>, sep: string, c: char)
    requires |terms| > 0
    ensures Count(Join(terms, sep), c) ==
            (|terms| - 1) * Count(sep, c) + SumCounts(terms, c)
    decreases |terms|
  {
    if |terms| > 1 {
      CountJoin(terms[1..], sep, c);
      CountConcat(terms[0] + sep, Join(terms[1..], sep), c);
      CountConcat(terms[0], sep, c);
    }
  }

  /** Occurrences of `c` summed over the terms. */
  function SumCounts(terms: seq<string>, c: char): nat
    decreases |terms|
  {
    if terms == [] then 0 else Count(terms[0], c) + SumCounts(terms[1..], c)
  }

  lemma {:induction false} SumCountsOfWhereTerms(names: seq<string>)
    requires forall i :: 0 <= i < |names| ==> '?' !in names[i]
    ensures SumCounts(WhereTerms(names), '?') == |names|
    decreases |names|
  {
    if names != [] {
      assert WhereTerms(names)[1..] == WhereTerms(names[1..]);
      SumCountsOfWhereTerms(names[1..]);
      CountConcat(names[0], PLACEHOLDER, '?');
      NoOccurrence(names[0], '?');
    }
  }

  lemma {:induction false} NoOccurrence(s: string, c: char)
    requires c !in s
    ensures Count(s, c) == 0
    decreases |s|
  {
    if s != [] {
      assert s[0] in s;
      NoOccurrence(s[1..], c);
    }
  }

  /** The WHERE clause has exactly one `?` per search column (so one per
      search value) when no column name contains `?`. */
  lemma WherePlaceholderCount(names: seq<string>)
    requires |names| > 0
    requires forall i :: 0 <= i < |names| ==> '?' !in names[i]
    ensures Count(WhereClause(names), '?') == |names|
  {
    CountJoin(WhereTerms(names), AND, '?');
    assert Count(AND, '?') == 0;
    SumCountsOfWhereTerms(names);
  }

  // ---------------------------------------------------------------------------
  // The four operations

  /** A search or update pair that `updateData` and `deleteData` refuse: a null
      array, arrays of different lengths, or empty arrays. */
  predicate InvalidPair(names: Nullable<seq<string>>, values: Nullable<seq<string>>)
  {
    names.Null? || values.Null? || |names.value| != |values.value| || |names.value| == 0
  }

  /** `insertData(columnNames, values)`: -1 for a null array, arrays of
      different lengths or an unprepared helper (empty arrays are accepted);
      otherwise an insert into the dao's table of the column/value pairs. */
  method InsertData(h: JackyDBHelper.Helper, d: Dao, columnNames: Nullable<seq<string>>, values: Nullable<seq<string>>)
    returns (o: Outcome)
    ensures o.Rejected? <==> columnNames.Null? || values.Null? || |columnNames.value| != |values.value| || h.Unprepared?
    ensures o.Rejected? ==> o.sentinel == -1
    ensures o.Sent? ==> o.request.Insert? && o.request.table == d.table
    ensures o.Sent? ==> o.request.values.Keys == NameSet(columnNames.value)
    ensures o.Sent? ==> forall i :: 0 <= i < |columnNames.value| && LastOccurrence(columnNames.value, i) ==>
                          o.request.values[columnNames.value[i]] == values.value[i]
  {
    if columnNames.Null? || values.Null? || |columnNames.value| != |values.value| {
      return Rejected(-1);
    }
    var instance := JackyDBHelper.GetInstance(h);
    if instance.Null? {
      return Rejected(-1);
    }
    var cv := PutAll(map[], columnNames.value, values.value);
    return Sent(Insert(d.table, cv));
  }

  /** `updateData(...)`: 0 for an invalid search or update pair or an
      unprepared helper; otherwise an update of the dao's table whose values
      stamp `UPDATE_TIME` first and then put each update column in order, and
      whose WHERE clause matches every search column by equality. */
  method UpdateData(h: JackyDBHelper.Helper, d: Dao,
                    searchColumnNames: Nullable<seq<string>>, searchValues: Nullable<seq<string>>,
                    updateColumnNames: Nullable<seq<string>>, updateValues: Nullable<seq<string>>)
    returns (o: Outcome)
    ensures o.Rejected? <==> InvalidPair(searchColumnNames, searchValues) || InvalidPair(updateColumnNames, updateValues) || h.Unprepared?
    ensures o.Rejected? ==> o.sentinel == 0
    ensures o.Sent? ==> o.request.Update? && o.request.table == d.table
    ensures o.Sent? ==> o.request.whereClause == WhereClause(searchColumnNames.value)
    ensures o.Sent? ==> o.request.whereArgs == Ref(searchValues.value)
    ensures o.Sent? ==> o.request.values.Keys == {UPDATE_TIME} + NameSet(updateColumnNames.value)
    ensures o.Sent? && UPDATE_TIME !in updateColumnNames.value ==> o.request.values[UPDATE_TIME] == NOW_LITERAL
    ensures o.Sent? ==> forall i :: 0 <= i < |updateColumnNames.value| && LastOccurrence(updateColumnNames.value, i) ==>
                          o.request.values[updateColumnNames.value[i]] == updateValues.value[i]
  {
    if InvalidPair(searchColumnNames, searchValues) {
      return Rejected(0);
    }
    if InvalidPair(updateColumnNames, updateValues) {
      return Rejected(0);
    }
    var instance := JackyDBHelper.GetInstance(h);
    if instance.Null? {
      return Rejected(0);
    }
    var cv := PutAll(map[UPDATE_TIME := NOW_LITERAL], updateColumnNames.value, updateValues.value);
    var where := BuildWhere(searchColumnNames.value);
    return Sent(Update(d.table, cv, where, Ref(searchValues.value)));
  }

  /** `deleteData(...)`: 0 for an invalid search pair or an unprepared helper;
      otherwise a delete from the dao's table with the same WHERE clause as
      `updateData`. */
  method DeleteData(h: JackyDBHelper.Helper, d: Dao, searchColumnNames: Nullable<seq<string>>, searchValues: Nullable<seq<string>>)
    returns (o: Outcome)
    ensures o.Rejected? <==> InvalidPair(searchColumnNames, searchValues) || h.Unprepared?
    ensures o.Rejected? ==> o.sentinel == 0
    ensures o.Sent? ==> o == Sent(Delete(d.table, WhereClause(searchColumnNames.value), Ref(searchValues.value)))
  {
    if InvalidPair(searchColumnNames, searchValues) {
      return Rejected(0);
    }
    var instance := JackyDBHelper.GetInstance(h);
    if instance.Null? {
      return Rejected(0);
    }
    var where := BuildWhere(searchColumnNames.value);
    return Sent(Delete(d.table, where, Ref(searchValues.value)));
  }

  /** `deleteAllData()`: 0 for an unprepared helper; otherwise a delete of every
      row (WHERE `1`, no arguments). */
  method DeleteAllData(h: JackyDBHelper.Helper, d: Dao) returns (o: Outcome)
    ensures o.Rejected? <==> h.Unprepared?
    ensures o.Rejected? ==> o.sentinel == 0
    ensures o.Sent? ==> o == Sent(Delete(d.table, ALL_ROWS, Null))
  {
    var instance := JackyDBHelper.GetInstance(h);
    if instance.Null? {
      return Rejected(0);
    }
    return Sent(Delete(d.table, ALL_ROWS, Null));
  }
}

=== FILE: jacky_application.dfy ===
/** `JackyApplication`: the started-activity counter that drives the
    foreground/background notifications, the dao registration of `onCreate`,
    and the effects of `onChangeToBackground`. */
module JackyApplication {
  import opened Java
  import JackyDBHelper
  import CreateTableSql

  /** The activity lifecycle callbacks the application listens to. */
  datatype Event = Created | Started | Resumed | Paused | Stopped | SaveInstanceState | Destroyed

  /** The two notifications the counter fires. */
  datatype Notice = ToForeground | ToBackground

  /** The counter's initial value. */
  const INITIAL_COUNT: int := 0

  /** One callback: `onActivityStarted` increments and fires `onChangeToForeground`
      on reaching 1; `onActivityStopped` decrements, with no guard, and fires
      `onChangeToBackground` on reaching 0; every other callback only logs. */
  function Step(count: int, e: Event): (r: (int, seq<Notice>))
    ensures e == Started ==> r.0 == count + 1 && r.1 == (if r.0 == 1 then [ToForeground] else [])
    ensures e == Stopped ==> r.0 == count - 1 && r.1 == (if r.0 == 0 then [ToBackground] else [])
    ensures e != Started && e != Stopped ==> r.0 == count && r.1 == []
  {
    match e
    case Started =>
      var n := count + 1;
      (n, if n == 1 then [ToForeground] else [])
    case Stopped =>
      var n := count - 1;
      (n, if n == 0 then [ToBackground] else [])
    case _ => (count, [])
  }

  /** A sequence of callbacks: the final counter and the notices fired, in order. */
  function Run(count: int, events: seq<Event>): (int, seq<Notice>)
    decreases |events|
  {
    if events == [] then (count, [])
    else
      var (c1, n1) := Step(count, events[0]);
      var (c2, rest) := Run(c1, events[1..]);
      (c2, n1 + rest)
  }

  /** Occurrences of one callback in a sequence. */
  function Occurrences(events: seq<Event>, e: Event): nat
    decreases |events|
  {
    if events == [] then 0 else (if events[0] == e then 1 else 0) + Occurrences(events[1..], e)
  }

  /** Starts minus stops. */
  function Balance(events: seq<Event>): int
  {
    Occurrences(events, Started) - Occurrences(events, Stopped)
  }

  /** The counter after any sequence of callbacks is the number of starts
      minus the number of stops. */
  lemma {:induction false} RunCount(count: int, events: seq<Event>)
    ensures Run(count, events).0 == count + Balance(events)
    decreases |events|
  {
    if events != [] {
      RunCount(Step(count, events[0]).0, events[1..]);
    }
  }

  /** No two consecutive notices are the same. */
  predicate Alternating(ns: seq<Notice>)
  {
    forall i :: 0 <= i < |ns| - 1 ==> ns[i] != ns[i + 1]
  }

  /** Stops never outnumber starts in any prefix, counting from `count` active
      activities. */
  predicate NeverBelowZero(count: int, events: seq<Event>)
  {
    forall k :: 0 <= k <= |events| ==> count + Balance(events[..k]) >= 0
  }

  lemma NeverBelowZeroTail(count: int, events: seq<Event>)
    requires events != []
    requires NeverBelowZero(count, events)
    ensures NeverBelowZero(Step(count, events[0]).0, events[1..])
  {
    var c1 := Step(count, events[0]).0;
    forall k | 0 <= k <= |events[1..]|
      ensures c1 + Balance(events[1..][..k]) >= 0
    {
      assert events[..k + 1][1..] == events[1..][..k];
      assert events[..k + 1][0] == events[0];
      assert count + Balance(events[..k + 1]) >= 0;
    }
  }

  lemma AlternatingCons(ns: seq<Notice>, rest: seq<Notice>)
    requires |ns| <= 1
    requires Alternating(rest)
    requires ns != [] && rest != [] ==> ns[0] != rest[0]
    ensures Alternating(ns + rest)
  {
    if ns != [] {
      forall i | 0 <= i < |ns + rest| - 1
        ensures (ns + rest)[i] != (ns + rest)[i + 1]
      {
        if i > 0 {
          assert (ns + rest)[i] == rest[i - 1];
          assert (ns + rest)[i + 1] == rest[i];
        }
      }
    } else {
      assert ns + rest == rest;
    }
  }

  /** From a non-negative count, and as long as stops never outnumber starts,
      the notices alternate, and the first one is a foreground notice exactly
      when no activity was started at the outset. */
  lemma {:induction false} NoticesAlternateFrom(count: int, events: seq<Event>)
    requires count >= 0
    requires NeverBelowZero(count, events)
    ensures Alternating(Run(count, events).1)
    ensures Run(count, events).1 != [] ==>
              Run(count, events).1[0] == (if count == 0 then ToForeground else ToBackground)
    decreases |events|
  {
    if events != [] {
      var (c1, n1) := Step(count, events[0]);
      NeverBelowZeroTail(count, events);
      assert c1 >= 0 by {
        var one := events[..1];
        assert count + Balance(one) >= 0;
        assert one[1..] == [] && one[0] == events[0];
        assert Occurrences(one, Started) == if events[0] == Started then 1 else 0;
        assert Occurrences(one, Stopped) == if events[0] == Stopped then 1 else 0;
      }
      NoticesAlternateFrom(c1, events[1..]);
      var rest := Run(c1, events[1..]).1;
      AlternatingCons(n1, rest);
    }
  }

  /** For any callback sequence in which stops never outnumber starts,
      foreground and background notices alternate, beginning with foreground. */
  lemma ForegroundBackgroundAlternate(events: seq<Event>)
    requires forall k :: 0 <= k <= |events| ==> Occurrences(events[..k], Stopped) <= Occurrences(events[..k], Started)
    ensures Alternating(Run(INITIAL_COUNT, events).1)
    ensures Run(INITIAL_COUNT, events).1 != [] ==> Run(INITIAL_COUNT, events).1[0] == ToForeground
  {
    NoticesAlternateFrom(INITIAL_COUNT, events);
  }

  // ---------------------------------------------------------------------------
  // onCreate and onChangeToBackground

  /** An element of the list `getRequiredDaoClasses()` returns: a dao class,
      or null, which the list may hold. */
  type ClassRef = Nullable<JackyDBHelper.DaoClass>

  /** `getRequiredDaoClasses()` as the base class defines it. */
  function DefaultRequiredDaoClasses(): (r: Nullable<seq<ClassRef>>)
    ensures r.Null?
  {
    Null
  }

  /** An element whose registration would throw an exception that
      `registerDao` does not catch, were it registered now. A null element
      never throws: `registerDao` logs it and returns. */
  predicate Escapes(reg: JackyDBHelper.Registry, c: ClassRef, newInstance: JackyDBHelper.Instantiation)
  {
    c.Ref? && c.value !in reg && newInstance(c.value).Escaping?
  }

  /** The position of the first element of `cs` whose registration throws, or
      `|cs|` when there is none. */
  function FirstEscape(reg: JackyDBHelper.Registry, cs: seq<ClassRef>,
                       newInstance: JackyDBHelper.Instantiation): (k: nat)
    ensures k <= |cs|
    ensures forall i :: 0 <= i < k ==> !Escapes(reg, cs[i], newInstance)
    ensures k < |cs| ==> Escapes(reg, cs[k], newInstance)
    decreases |cs|
  {
    if cs == [] then 0
    else if Escapes(reg, cs[0], newInstance) then 0
    else
      var k := FirstEscape(reg, cs[1..], newInstance);
      assert forall i :: 1 <= i < 1 + k ==> cs[i] == cs[1..][i - 1];
      1 + k
  }

  /** A registration that throws nothing leaves the set of escaping elements
      as it was: only constructed classes are added. */
  lemma EscapesUnchanged(reg: JackyDBHelper.Registry, c0: ClassRef, newInstance: JackyDBHelper.Instantiation)
    requires !Escapes(reg, c0, newInstance)
    ensures forall c :: Escapes(JackyDBHelper.RegisterDao(reg, c0, newInstance).reg, c, newInstance) <==>
                        Escapes(reg, c, newInstance)
  {
  }

  /** `FirstEscape` depends only on which elements escape. */
  lemma {:induction false} FirstEscapeSame(reg1: JackyDBHelper.Registry, reg2: JackyDBHelper.Registry,
                                           cs: seq<ClassRef>, newInstance: JackyDBHelper.Instantiation)
    requires forall c :: Escapes(reg1, c, newInstance) <==> Escapes(reg2, c, newInstance)
    ensures FirstEscape(reg1, cs, newInstance) == FirstEscape(reg2, cs, newInstance)
    decreases |cs|
  {
    if cs != [] {
      FirstEscapeSame(reg1, reg2, cs[1..], newInstance);
    }
  }

  /** The non-null classes of `cs` whose instantiation constructs an instance. */
  function ConstructedAmong(cs: seq<ClassRef>, newInstance: JackyDBHelper.Instantiation): (r: set<JackyDBHelper.DaoClass>)
    ensures forall c :: c in r <==> Ref(c) in cs && newInstance(c).Constructed?
  {
    var r := set i | 0 <= i < |cs| && cs[i].Ref? && newInstance(cs[i].value).Constructed? :: cs[i].value;
    assert forall c :: Ref(c) in cs && newInstance(c).Constructed? ==> c in r by {
      forall c | Ref(c) in cs && newInstance(c).Constructed? ensures c in r {
        var i :| 0 <= i < |cs| && cs[i] == Ref(c);
      }
    }
    r
  }

  /** The keys after one non-throwing registration followed by the rest. */
  lemma KeysStep(reg: JackyDBHelper.Registry, cs: seq<ClassRef>, k: nat,
                 newInstance: JackyDBHelper.Instantiation)
    requires 0 <= k < |cs|
    ensures JackyDBHelper.RegisterDao(reg, cs[0], newInstance).reg.Keys + ConstructedAmong(cs[1..][..k], newInstance) ==
            reg.Keys + ConstructedAmong(cs[..k + 1], newInstance)
  {
    assert cs[..k + 1] == [cs[0]] + cs[1..][..k];
  }

  /** The registration loop of `onCreate`: `registerDao` for every element
      `getRequiredDaoClasses()` returns, none when it returns null. A null
      element is skipped. An exception escaping `registerDao` ends the loop
      and leaves `onCreate`; the classes after it are never registered. */
  function RegisterRequired(reg: JackyDBHelper.Registry, required: Nullable<seq<ClassRef>>,
                            newInstance: JackyDBHelper.Instantiation): (r: JackyDBHelper.Registration)
    ensures required.Null? ==> r == JackyDBHelper.Registration(reg, false)
    ensures required.Ref? ==> (r.escaped <==> FirstEscape(reg, required.value, newInstance) < |required.value|)
    ensures required.Ref? ==>
              r.reg.Keys == reg.Keys + ConstructedAmong(required.value[..FirstEscape(reg, required.value, newInstance)], newInstance)
    ensures forall c :: c in reg ==> r.reg[c] == reg[c]
    ensures forall c :: c in r.reg && c !in reg ==>
              newInstance(c).Constructed? && r.reg[c] == JackyDBHelper.NewDao(c, newInstance(c).calls)
    ensures JackyDBHelper.WellFormedRegistry(reg) ==> JackyDBHelper.WellFormedRegistry(r.reg)
    decreases if required.Ref? then |required.value| else 0
  {
    if required.Null? || required.value == [] then JackyDBHelper.Registration(reg, false)
    else
      var cs := required.value;
      var first := JackyDBHelper.RegisterDao(reg, cs[0], newInstance);
      if first.escaped then first
      else
        EscapesUnchanged(reg, cs[0], newInstance);
        FirstEscapeSame(first.reg, reg, cs[1..], newInstance);
        KeysStep(reg, cs, FirstEscape(reg, cs[1..], newInstance), newInstance);
        RegisterRequired(first.reg, Ref(cs[1..]), newInstance)
  }

  /** A class that the loop newly registers gets, from `onCreate`, the
      `CREATE TABLE` statement built from the columns its constructor added. */
  lemma RequiredDaoReachesCreateTable(reg: JackyDBHelper.Registry, required: Nullable<seq<ClassRef>>,
                                      newInstance: JackyDBHelper.Instantiation, c: JackyDBHelper.DaoClass)
    requires c in RegisterRequired(reg, required, newInstance).reg && c !in reg
    requires newInstance(c).Constructed? && |JackyDBHelper.NewDao(c, newInstance(c).calls).columnInfos| > 0
    ensures c in JackyDBHelper.OnCreate(RegisterRequired(reg, required, newInstance).reg)
    ensures JackyDBHelper.OnCreate(RegisterRequired(reg, required, newInstance).reg)[c] ==
            CreateTableSql.CreateTable(c.simpleName, JackyDBHelper.NewDao(c, newInstance(c).calls).columnInfos)
  {
  }

  /** When the first required class throws an uncaught exception, the second
      is never registered, whatever its constructor would do. */
  lemma EscapeStopsRegistration(reg: JackyDBHelper.Registry, a: JackyDBHelper.DaoClass, b: JackyDBHelper.DaoClass,
                                newInstance: JackyDBHelper.Instantiation)
    requires a !in reg && b !in reg && newInstance(a).Escaping?
    ensures RegisterRequired(reg, Ref([Ref(a), Ref(b)]), newInstance).escaped
    ensures b !in RegisterRequired(reg, Ref([Ref(a), Ref(b)]), newInstance).reg
  {
  }

  /** A null element of the list is logged and skipped; the loop goes on
      with the rest exactly as if it were absent. */
  lemma NullElementSkipped(reg: JackyDBHelper.Registry, cs: seq<ClassRef>, newInstance: JackyDBHelper.Instantiation)
    ensures RegisterRequired(reg, Ref([Null] + cs), newInstance) == RegisterRequired(reg, Ref(cs), newInstance)
  {
    assert ([Null] + cs)[1..] == cs;
  }

  /** The base `onCreate` registers nothing. */
  lemma DefaultOnCreateRegistersNothing(reg: JackyDBHelper.Registry, newInstance: JackyDBHelper.Instantiation)
    ensures RegisterRequired(reg, DefaultRequiredDaoClasses(), newInstance) == JackyDBHelper.Registration(reg, false)
  {
  }

  /** What `onChangeToBackground` does besides logging. */
  datatype Effect = FlushLog | CloseDbIfExist

  /** `onChangeToBackground`: flushes the log, then closes the database only
      when `getInstance()` is non-null. */
  function OnChangeToBackground(h: JackyDBHelper.Helper): (effects: seq<Effect>)
    ensures |effects| >= 1 && effects[0] == FlushLog
    ensures CloseDbIfExist in effects <==> JackyDBHelper.GetInstance(h).Ref?
  {
    [FlushLog] + (if JackyDBHelper.GetInstance(h).Ref? then [CloseDbIfExist] else [])
  }
}

=== FILE: jacky_dao.dfy ===
/** The column registry of `JackyDao`: an insertion-ordered list of columns in
    which the first registration of a name wins. */
module JackyDao {
  import opened Java
  import opened Schema
  import StringUtils

  /** A dao instance: the simple name of its class, which is also its table
      name, and the columns registered on it. */
  datatype Dao = Dao(table: string, columnInfos: seq<ColumnInfo>)

  /** One call `addColumnAndType(columnName, dataType, isAllowNull)`. */
  datatype AddRequest = AddRequest(columnName: Nullable<string>, dataType: DataType, isAllowNull: bool)

  /** `ArrayList.contains(c)`: some element `e` with `c.equals(e)`. */
  predicate Contains(cols: seq<ColumnInfo>, c: ColumnInfo)
  {
    exists i :: 0 <= i < |cols| && ColumnEquals(c, Ref(cols[i]))
  }

  /** Some column of the list carries the name `n`. */
  predicate HasName(cols: seq<ColumnInfo>, n: string)
  {
    exists i :: 0 <= i < |cols| && cols[i].columnName == Ref(n)
  }

  /** What the dao keeps true of its list: every name is non-null and
      non-empty, and no name occurs twice. */
  predicate WellFormedColumns(cols: seq<ColumnInfo>)
  {
    && (forall i :: 0 <= i < |cols| ==> cols[i].columnName.Ref? && cols[i].columnName.value != "")
    && (forall i, j :: 0 <= i < j < |cols| ==> cols[i].columnName != cols[j].columnName)
  }

  /** `addColumnAndType(columnName, dataType, isAllowNull)`. */
  function AddColumnAndType(d: Dao, columnName: Nullable<string>, dataType: DataType, isAllowNull: bool): (r: Dao)
    ensures r.table == d.table
    ensures StringUtils.IsNullOrEmpty(columnName) ==> r == d
    ensures columnName.Ref? && HasName(d.columnInfos, columnName.value) ==> r == d
    ensures !StringUtils.IsNullOrEmpty(columnName) && !HasName(d.columnInfos, columnName.value) ==>
              r.columnInfos == d.columnInfos + [ColumnInfo(columnName, dataType, isAllowNull)]
    ensures WellFormedColumns(d.columnInfos) ==> WellFormedColumns(r.columnInfos)
  {
    if StringUtils.IsEmpty(columnName) then d
    else
      var c := ColumnInfo(columnName, dataType, isAllowNull);
      if Contains(d.columnInfos, c) then d
      else d.(columnInfos := d.columnInfos + [c])
  }

  /** The two-argument overload `addColumnAndType(columnName, dataType)`. */
  function AddColumnAndTypeNotNull(d: Dao, columnName: Nullable<string>, dataType: DataType): (r: Dao)
    ensures r == AddColumnAndType(d, columnName, dataType, false)
    ensures !StringUtils.IsNullOrEmpty(columnName) && !HasName(d.columnInfos, columnName.value) ==>
              r.columnInfos[|r.columnInfos| - 1].isAllowNull == false
  {
    AddColumnAndType(d, columnName, dataType, false)
  }

  /** Re-adding a name already present is a no-op, whatever type and
      nullability the second call asks for. */
  lemma SecondRegistrationIgnored(d: Dao, n: string, t1: DataType, b1: bool, t2: DataType, b2: bool)
    ensures AddColumnAndType(AddColumnAndType(d, Ref(n), t1, b1), Ref(n), t2, b2) == AddColumnAndType(d, Ref(n), t1, b1)
  {
    var d1 := AddColumnAndType(d, Ref(n), t1, b1);
    if n != "" && !HasName(d.columnInfos, n) {
      assert d1.columnInfos[|d.columnInfos|].columnName == Ref(n);
    }
  }

  /** Applies a sequence of `addColumnAndType` calls in order. */
  function AddAll(d: Dao, reqs: seq<AddRequest>): (r: Dao)
    ensures r.table == d.table
    ensures WellFormedColumns(d.columnInfos) ==> WellFormedColumns(r.columnInfos)
    ensures |d.columnInfos| <= |r.columnInfos| && r.columnInfos[..|d.columnInfos|] == d.columnInfos
    decreases |reqs|
  {
    if reqs == [] then d
    else
      var q := reqs[0];
      AddAll(AddColumnAndType(d, q.columnName, q.dataType, q.isAllowNull), reqs[1..])
  }

  /** The first column named `n`, if any. */
  function Lookup(cols: seq<ColumnInfo>, n: string): Nullable<ColumnInfo>
    decreases |cols|
  {
    if cols == [] then Null
    else if cols[0].columnName == Ref(n) then Ref(cols[0])
    else Lookup(cols[1..], n)
  }

  /** The first request that names `n`, if any. */
  function FirstRequest(reqs: seq<AddRequest>, n: string): Nullable<AddRequest>
    decreases |reqs|
  {
    if reqs == [] then Null
    else if reqs[0].columnName == Ref(n) then Ref(reqs[0])
    else FirstRequest(reqs[1..], n)
  }

  lemma {:induction false} LookupFindsName(cols: seq<ColumnInfo>, n: string)
    ensures Lookup(cols, n).Ref? <==> HasName(cols, n)
    ensures Lookup(cols, n).Ref? ==> Lookup(cols, n).value.columnName == Ref(n)
    decreases |cols|
  {
    if cols != [] {
      LookupFindsName(cols[1..], n);
      if HasName(cols, n) && cols[0].columnName != Ref(n) {
        var i :| 0 <= i < |cols| && cols[i].columnName == Ref(n);
        assert cols[1..][i - 1] == cols[i];
      }
      if HasName(cols[1..], n) {
        var i :| 0 <= i < |cols[1..]| && cols[1..][i].columnName == Ref(n);
        assert cols[i + 1] == cols[1..][i];
      }
    }
  }

  lemma {:induction false} LookupAppend(cols: seq<ColumnInfo>, c: ColumnInfo, n: string)
    ensures Lookup(cols + [c], n) ==
            if Lookup(cols, n).Ref? then Lookup(cols, n)
            else if c.columnName == Ref(n) then Ref(c)
            else Null
    decreases |cols|
  {
    if cols == [] {
      assert [c][1..] == [];
    } else {
      assert (cols + [c])[1..] == cols[1..] + [c];
      LookupAppend(cols[1..], c, n);
    }
  }

  /** First registration wins: after any sequence of calls, the column named
      `n` is the one already present, or else the one built from the first
      call that asked for `n`; no call can add `n` otherwise. */
  lemma {:induction false} FirstRegistrationWins(d: Dao, reqs: seq<AddRequest>, n: string)
    requires n != ""
    ensures Lookup(AddAll(d, reqs).columnInfos, n) ==
            if Lookup(d.columnInfos, n).Ref? then Lookup(d.columnInfos, n)
            else match FirstRequest(reqs, n)
              case Null => Null
              case Ref(q) => Ref(ColumnInfo(Ref(n), q.dataType, q.isAllowNull))
    decreases |reqs|
  {
    if reqs != [] {
      var q := reqs[0];
      var d1 := AddColumnAndType(d, q.columnName, q.dataType, q.isAllowNull);
      FirstRegistrationWins(d1, reqs[1..], n);
      LookupFindsName(d.columnInfos, n);
      if !StringUtils.IsNullOrEmpty(q.columnName) && !HasName(d.columnInfos, q.columnName.value) {
        LookupAppend(d.columnInfos, ColumnInfo(q.columnName, q.dataType, q.isAllowNull), n);
      }
    }
  }

  /** A name that no call asks for never appears, and every non-empty name
      some call asks for does. */
  lemma {:induction false} AddAllNames(d: Dao, reqs: seq<AddRequest>, n: string)
    requires n != ""
    ensures HasName(AddAll(d, reqs).columnInfos, n) <==> HasName(d.columnInfos, n) || FirstRequest(reqs, n).Ref?
  {
    FirstRegistrationWins(d, reqs, n);
    LookupFindsName(d.columnInfos, n);
    LookupFindsName(AddAll(d, reqs).columnInfos, n);
  }
}

=== FILE: jacky_db_helper.dfy ===
/** `JackyDBHelper`: the one-shot `prepare` state machine, the dao registry
    (a `HashMap` from dao class to dao instance), the `onCreate` schema
    generation and the default `onUpgrade` migration. The database itself is
    modelled as the set of its table names. */
module JackyDBHelper {
  import opened Java
  import opened Schema
  import opened JackyDao
  import StringUtils
  import CreateTableSql

  /** The name used when `prepare` is given a null or empty name. */
  const DEFAULT_NAME: string := "myDatabase"

  /** SQLite's internal table that the default upgrade keeps. */
  const SEQUENCE_TABLE: string := "sqlite_sequence"

  const DROP_TABLE_HEAD: string := "DROP TABLE "

  // ---------------------------------------------------------------------------
  // prepare / getInstance

  /** An Android `Context`, identified opaquely. */
  datatype Context = Context(id: nat)

  /** What the helper instance is constructed with. */
  datatype Config = Config(context: Context, name: string, version: int32)

  /** The static `isPrepared` flag together with `instance`: the instance
      exists exactly when the flag is set. */
  datatype Helper = Unprepared | Prepared(instance: Config)

  /** One call `prepare(context, databaseName, version)`. */
  datatype PrepareCall = PrepareCall(context: Nullable<Context>, databaseName: Nullable<string>, version: int32)

  /** The database name `prepare` uses. */
  function NormalizeName(databaseName: Nullable<string>): (r: string)
    ensures r != ""
    ensures StringUtils.IsNullOrEmpty(databaseName) ==> r == DEFAULT_NAME
    ensures !StringUtils.IsNullOrEmpty(databaseName) ==> r == databaseName.value
  {
    if StringUtils.IsEmpty(databaseName) then DEFAULT_NAME else databaseName.value
  }

  /** The calls `prepare` accepts: a non-null context and a version of at least 1. */
  predicate Accepts(call: PrepareCall)
  {
    call.context.Ref? && call.version >= 1
  }

  /** `prepare`: a no-op once prepared; otherwise it rejects a null context or
      a version below 1 and leaves the helper unprepared, and else creates the
      instance and sets the flag. */
  function Prepare(h: Helper, call: PrepareCall): (r: Helper)
    ensures h.Prepared? ==> r == h
    ensures h.Unprepared? ==> (r.Prepared? <==> call.context.Ref? && call.version >= 1)
    ensures h.Unprepared? && r.Prepared? ==>
              r.instance.context == call.context.value && r.instance.version == call.version &&
              r.instance.name == NormalizeName(call.databaseName)
  {
    if h.Prepared? then h
    else if call.context.Null? then h
    else if call.version < 1 then h
    else Prepared(Config(call.context.value, NormalizeName(call.databaseName), call.version))
  }

  /** `getInstance`: null until a `prepare` call succeeded, the instance afterwards. */
  function GetInstance(h: Helper): (r: Nullable<Config>)
    ensures r.Null? <==> h.Unprepared?
    ensures h.Prepared? ==> r == Ref(h.instance)
  {
    match h
    case Unprepared => Null
    case Prepared(config) => Ref(config)
  }

  /** A sequence of `prepare` calls, in order. */
  function PrepareAll(h: Helper, calls: seq<PrepareCall>): Helper
    decreases |calls|
  {
    if calls == [] then h else PrepareAll(Prepare(h, calls[0]), calls[1..])
  }

  /** The first call of the sequence that `prepare` would accept. */
  function FirstAccepted(calls: seq<PrepareCall>): (r: Nullable<PrepareCall>)
    ensures r.Ref? ==> Accepts(r.value)
    decreases |calls|
  {
    if calls == [] then Null
    else if Accepts(calls[0]) then Ref(calls[0])
    else FirstAccepted(calls[1..])
  }

  /** A rejected `prepare` leaves the helper unprepared, so `getInstance`
      still answers null. */
  lemma PrepareRejects(call: PrepareCall)
    requires call.context.Null? || call.version < 1
    ensures Prepare(Unprepared, call) == Unprepared
    ensures GetInstance(Prepare(Unprepared, call)) == Null
  {
  }

  /** Once a `prepare` has succeeded, a second one changes nothing, whatever
      its arguments. */
  lemma PrepareIdempotent(h: Helper, first: PrepareCall, second: PrepareCall)
    requires Prepare(h, first).Prepared?
    ensures Prepare(Prepare(h, first), second) == Prepare(h, first)
    ensures GetInstance(Prepare(Prepare(h, first), second)) == GetInstance(Prepare(h, first))
  {
  }

  /** Only the first accepted call of any sequence of `prepare` calls takes
      effect; the calls rejected before it and every call after it change
      nothing. */
  lemma {:induction false} FirstAcceptedPrepareWins(calls: seq<PrepareCall>)
    ensures PrepareAll(Unprepared, calls) ==
            match FirstAccepted(calls)
            case Null => Unprepared
            case Ref(c) => Prepared(Config(c.context.value, NormalizeName(c.databaseName), c.version))
    decreases |calls|
  {
    if calls != [] {
      if Accepts(calls[0]) {
        PreparedIsFinal(Prepare(Unprepared, calls[0]), calls[1..]);
      } else {
        FirstAcceptedPrepareWins(calls[1..]);
      }
    }
  }

  /** Once prepared, no sequence of `prepare` calls changes the helper. */
  lemma {:induction false} PreparedIsFinal(h: Helper, calls: seq<PrepareCall>)
    requires h.Prepared?
    ensures PrepareAll(h, calls) == h
    decreases |calls|
  {
    if calls != [] {
      PreparedIsFinal(Prepare(h, calls[0]), calls[1..]);
    }
  }

  // ---------------------------------------------------------------------------
  // The dao registry

  /** A dao class: its fully qualified name (its identity) and its simple
      name, which names its table. */
  datatype DaoClass = DaoClass(qualifiedName: string, simpleName: string)

  /** `daoMap`. */
  type Registry = map<DaoClass, Dao>

  /** What `Class.newInstance` does for a dao class: it constructs an
      instance, whose constructor makes some `addColumnAndType` calls; or it
      throws `IllegalAccessException` or `InstantiationException`, which
      `registerDao` catches; or it throws anything else, which escapes. */
  datatype Instance = Constructed(calls: seq<AddRequest>) | CaughtFailure | Escaping

  /** `Class.newInstance`, left opaque. */
  type Instantiation = DaoClass -> Instance

  /** The dao a successful instantiation yields. */
  function NewDao(cls: DaoClass, calls: seq<AddRequest>): (d: Dao)
    ensures d.table == cls.simpleName
    ensures WellFormedColumns(d.columnInfos)
  {
    AddAll(Dao(cls.simpleName, []), calls)
  }

  /** What holds of every registry built through `registerDao` and
      `addColumnAndType`: each dao is named after its class and keeps its
      column list well formed. */
  predicate WellFormedRegistry(reg: Registry)
  {
    forall c :: c in reg ==> reg[c].table == c.simpleName && WellFormedColumns(reg[c].columnInfos)
  }

  /** The registry after a `registerDao` call, and whether an exception
      escaped the call. */
  datatype Registration = Registration(reg: Registry, escaped: bool)

  /** `registerDao(daoClass)`: null is ignored, a registered class keeps its
      instance without a new instantiation, a caught failure changes nothing,
      an escaping exception changes nothing and propagates, and otherwise the
      new instance is stored. Entries already present are never altered. */
  function RegisterDao(reg: Registry, daoClass: Nullable<DaoClass>, newInstance: Instantiation): (r: Registration)
    ensures r.escaped <==> daoClass.Ref? && daoClass.value !in reg && newInstance(daoClass.value).Escaping?
    ensures r.reg.Keys ==
              if daoClass.Ref? && newInstance(daoClass.value).Constructed? then reg.Keys + {daoClass.value} else reg.Keys
    ensures forall c :: c in reg ==> r.reg[c] == reg[c]
    ensures daoClass.Ref? && daoClass.value !in reg && newInstance(daoClass.value).Constructed? ==>
              r.reg[daoClass.value] == NewDao(daoClass.value, newInstance(daoClass.value).calls)
    ensures WellFormedRegistry(reg) ==> WellFormedRegistry(r.reg)
  {
    if daoClass.Null? then Registration(reg, false)
    else if daoClass.value in reg then Registration(reg, false)
    else match newInstance(daoClass.value)
      case Constructed(calls) => Registration(reg[daoClass.value := NewDao(daoClass.value, calls)], false)
      case CaughtFailure => Registration(reg, false)
      case Escaping => Registration(reg, true)
  }

  /** `getDao(daoClass)`: the stored instance, or null. */
  function GetDao(reg: Registry, daoClass: Nullable<DaoClass>): (r: Nullable<Dao>)
    ensures r.Ref? <==> daoClass.Ref? && daoClass.value in reg
    ensures r.Ref? ==> r.value == reg[daoClass.value]
  {
    if daoClass.Ref? && daoClass.value in reg then Ref(reg[daoClass.value]) else Null
  }

  /** Registering a class twice, even with a different constructor behaviour
      the second time, is the same as registering it once; the second call
      never reaches `newInstance` once the first succeeded, and `getDao` then
      returns the instance of the first successful registration. */
  lemma RegisterDaoIdempotent(reg: Registry, cls: DaoClass, f: Instantiation, g: Instantiation)
    ensures RegisterDao(RegisterDao(reg, Ref(cls), f).reg, Ref(cls), g).reg ==
            if cls in reg || f(cls).Constructed? then RegisterDao(reg, Ref(cls), f).reg else RegisterDao(reg, Ref(cls), g).reg
    ensures f(cls).Constructed? ==> !RegisterDao(RegisterDao(reg, Ref(cls), f).reg, Ref(cls), g).escaped
    ensures f(cls).Constructed? ==> GetDao(RegisterDao(RegisterDao(reg, Ref(cls), f).reg, Ref(cls), g).reg, Ref(cls)).Ref?
    ensures cls in reg ==> GetDao(RegisterDao(reg, Ref(cls), g).reg, Ref(cls)) == Ref(reg[cls])
  {
  }

  /** Adding a column through the instance `getDao(cls)` returns. The
      registry holds that very instance, so the column reaches the table
      `onCreate` later builds. `getDao` of an unregistered class is null, and
      the call would then fail; the caller must have registered `cls`. */
  function AddColumnToRegistered(reg: Registry, cls: DaoClass, columnName: Nullable<string>,
                                 dataType: DataType, isAllowNull: bool): (r: Registry)
    requires cls in reg
    ensures r.Keys == reg.Keys
    ensures forall c :: c in reg && c != cls ==> r[c] == reg[c]
    ensures GetDao(r, Ref(cls)) == Ref(AddColumnAndType(reg[cls], columnName, dataType, isAllowNull))
    ensures WellFormedRegistry(reg) ==> WellFormedRegistry(r)
  {
    reg[cls := AddColumnAndType(reg[cls], columnName, dataType, isAllowNull)]
  }

  // ---------------------------------------------------------------------------
  // onCreate

  /** The daos `onCreate` builds a table for: those with at least one column. */
  function TableDaos(reg: Registry): (r: set<DaoClass>)
    ensures forall c :: c in r <==> c in reg && |reg[c].columnInfos| > 0
  {
    set c | c in reg && |reg[c].columnInfos| > 0
  }

  /** The table names of the daos `onCreate` builds a table for. */
  function DaoTables(reg: Registry): (r: set<string>)
    ensures r == {} <==> TableDaos(reg) == {}
  {
    var r := set c | c in TableDaos(reg) :: c.simpleName;
    assert TableDaos(reg) != {} ==> r != {} by {
      if TableDaos(reg) != {} {
        var c :| c in TableDaos(reg);
        assert c.simpleName in r;
      }
    }
    r
  }

  /** `onCreate`: one `CREATE TABLE` statement per registered dao with a
      non-empty column list, keyed by the dao's class. The `HashMap` gives
      no iteration order, so the plan is a map rather than a sequence. */
  function OnCreate(reg: Registry): (plan: map<DaoClass, string>)
    ensures plan.Keys == TableDaos(reg)
    ensures forall c :: c in plan ==> CreateTableSql.CREATE_TABLE_HEAD + c.simpleName + CreateTableSql.PRIMARY_KEY_PART <= plan[c]
  {
    map c | c in TableDaos(reg) :: CreateTableSql.CreateTable(c.simpleName, reg[c].columnInfos)
  }

  /** A column added through `getDao` after registration, with a new
      non-empty name, appears at the end of that dao's `CREATE TABLE`
      statement, and no other statement changes. */
  lemma LateColumnReachesCreateTable(reg: Registry, cls: DaoClass, name: string, dataType: DataType, isAllowNull: bool)
    requires cls in reg && name != "" && !HasName(reg[cls].columnInfos, name)
    ensures cls in OnCreate(AddColumnToRegistered(reg, cls, Ref(name), dataType, isAllowNull))
    ensures OnCreate(AddColumnToRegistered(reg, cls, Ref(name), dataType, isAllowNull))[cls] ==
            CreateTableSql.CreateTable(cls.simpleName, reg[cls].columnInfos + [ColumnInfo(Ref(name), dataType, isAllowNull)])
    ensures forall c :: c in OnCreate(reg) && c != cls ==>
              c in OnCreate(AddColumnToRegistered(reg, cls, Ref(name), dataType, isAllowNull)) &&
              OnCreate(AddColumnToRegistered(reg, cls, Ref(name), dataType, isAllowNull))[c] == OnCreate(reg)[c]
  {
    var r := AddColumnToRegistered(reg, cls, Ref(name), dataType, isAllowNull);
    assert GetDao(r, Ref(cls)) == Ref(r[cls]);
    assert |r[cls].columnInfos| > 0;
  }

  /** Each statement of the plan reads back as its dao's table name and
      column list, in order. */
  lemma OnCreateReadsBack(reg: Registry, c: DaoClass)
    requires c in reg && CreateTableSql.IsIdentifier(c.simpleName)
    requires CreateTableSql.IdentifierColumns(reg[c].columnInfos)
    requires |reg[c].columnInfos| > 0
    ensures c in OnCreate(reg)
    ensures CreateTableSql.ParseCreateTable(OnCreate(reg)[c]) == Ref((c.simpleName, reg[c].columnInfos))
  {
    CreateTableSql.CreateTableRoundTrip(c.simpleName, reg[c].columnInfos);
  }

  /** With distinct simple names, different daos get different statements, so
      each dao with columns gets exactly one `CREATE TABLE` of its own. */
  lemma OnCreateDistinctStatements(reg: Registry, c: DaoClass, d: DaoClass)
    requires c in OnCreate(reg) && d in OnCreate(reg) && c != d
    requires c.simpleName != d.simpleName
    requires CreateTableSql.IsIdentifier(c.simpleName) && CreateTableSql.IsIdentifier(d.simpleName)
    requires CreateTableSql.IdentifierColumns(reg[c].columnInfos) && CreateTableSql.IdentifierColumns(reg[d].columnInfos)
    ensures OnCreate(reg)[c] != OnCreate(reg)[d]
  {
    CreateTableSql.CreateTableInjective(c.simpleName, reg[c].columnInfos, d.simpleName, reg[d].columnInfos);
  }

  /** The table a statement of the plan creates, as the engine reads it. */
  function CreatedTable(sql: string): Nullable<string>
  {
    match CreateTableSql.ParseCreateTable(sql)
    case Null => Null
    case Ref(parsed) => Ref(parsed.0)
  }

  /** The tables the statements of `OnCreate(reg)` name. */
  function PlannedTables(reg: Registry): set<string>
  {
    var plan := OnCreate(reg);
    set c | c in plan && CreatedTable(plan[c]).Ref? :: CreatedTable(plan[c]).value
  }

  /** The tables after executing every statement of `OnCreate(reg)` on a
      database whose tables are `db`. Every statement declares an
      `AUTOINCREMENT` key, and SQLite creates `sqlite_sequence` together with
      the first such table. */
  function ExecuteCreate(db: set<string>, reg: Registry): (r: set<string>)
    ensures db <= r
    ensures PlannedTables(reg) != {} ==> SEQUENCE_TABLE in r
    ensures SEQUENCE_TABLE in r ==> SEQUENCE_TABLE in db || PlannedTables(reg) != {}
  {
    var made := PlannedTables(reg);
    db + made + (if made != {} then {SEQUENCE_TABLE} else {})
  }

  /** `sqlite_sequence`, which SQLite creates with the first table that has
      an `AUTOINCREMENT` key, when the plan creates any table. */
  function SequenceTableIfCreating(reg: Registry): set<string>
  {
    if TableDaos(reg) != {} then {SEQUENCE_TABLE} else {}
  }

  /** The statements of the plan name exactly the tables of the daos with
      columns. */
  lemma PlannedTablesAreDaoTables(reg: Registry)
    requires forall c :: c in reg ==> CreateTableSql.IsIdentifier(c.simpleName)
    requires forall c :: c in reg ==> CreateTableSql.IdentifierColumns(reg[c].columnInfos)
    ensures PlannedTables(reg) == DaoTables(reg)
  {
    var plan := OnCreate(reg);
    var made := PlannedTables(reg);
    var named := DaoTables(reg);
    forall t | t in made ensures t in named {
      var c :| c in plan && CreatedTable(plan[c]).Ref? && CreatedTable(plan[c]).value == t;
      OnCreateReadsBack(reg, c);
    }
    forall t | t in named ensures t in made {
      var c :| c in TableDaos(reg) && c.simpleName == t;
      OnCreateReadsBack(reg, c);
      assert CreatedTable(plan[c]) == Ref(t);
    }
  }

  /** Executing `onCreate` adds exactly the tables of the daos that have
      columns, each under its class's simple name, and `sqlite_sequence`
      when it creates any table. */
  lemma ExecuteCreateTables(db: set<string>, reg: Registry)
    requires forall c :: c in reg ==> CreateTableSql.IsIdentifier(c.simpleName)
    requires forall c :: c in reg ==> CreateTableSql.IdentifierColumns(reg[c].columnInfos)
    ensures ExecuteCreate(db, reg) == db + DaoTables(reg) + SequenceTableIfCreating(reg)
  {
    PlannedTablesAreDaoTables(reg);
  }

  // ---------------------------------------------------------------------------
  // onUpgrade

  /** The caller-supplied upgrade listener, left opaque. */
  datatype UpgradeListener = UpgradeListener(id: nat)

  /** What `onUpgrade` does. */
  datatype UpgradeOutcome =
    | DelegatedToListener(listener: UpgradeListener, oldVersion: int32, newVersion: int32)
    | Rebuilt(drops: set<string>, creates: map<DaoClass, string>, tables: set<string>)

  /** The names the catalogue query returns. */
  function ListedTables(db: set<string>): (r: set<string>)
    ensures forall t :: t in r <==> t in db && t != SEQUENCE_TABLE
  {
    db - {SEQUENCE_TABLE}
  }

  /** One `DROP TABLE` per listed table. */
  function DropStatements(db: set<string>): (r: set<string>)
    ensures forall t :: t in ListedTables(db) ==> DROP_TABLE_HEAD + t in r
    ensures forall q :: q in r ==> DROP_TABLE_HEAD <= q
  {
    set t | t in ListedTables(db) :: DROP_TABLE_HEAD + t
  }

  /** A drop statement determines the table it names. */
  lemma DropHeadInjective(t: string, u: string)
    ensures DROP_TABLE_HEAD + t == DROP_TABLE_HEAD + u ==> t == u
  {
    if DROP_TABLE_HEAD + t == DROP_TABLE_HEAD + u {
      assert t == (DROP_TABLE_HEAD + t)[|DROP_TABLE_HEAD|..];
      assert u == (DROP_TABLE_HEAD + u)[|DROP_TABLE_HEAD|..];
    }
  }

  /** `sqlite_sequence` is never dropped. */
  lemma SequenceTableNotDropped(db: set<string>)
    ensures DROP_TABLE_HEAD + SEQUENCE_TABLE !in DropStatements(db)
  {
    forall t | t in ListedTables(db)
      ensures DROP_TABLE_HEAD + t != DROP_TABLE_HEAD + SEQUENCE_TABLE
    {
      DropHeadInjective(t, SEQUENCE_TABLE);
    }
  }

  /** The tables left after executing the drops. */
  function ExecuteDrops(db: set<string>): (r: set<string>)
    ensures r <= {SEQUENCE_TABLE}
    ensures SEQUENCE_TABLE in r <==> SEQUENCE_TABLE in db
  {
    db - ListedTables(db)
  }

  /** `onUpgrade`: with a listener it only delegates; without one it drops
      every table except `sqlite_sequence` and then re-runs `onCreate`. */
  function OnUpgrade(db: set<string>, reg: Registry, listener: Nullable<UpgradeListener>, oldVersion: int32, newVersion: int32): (r: UpgradeOutcome)
    ensures listener.Ref? ==> r == DelegatedToListener(listener.value, oldVersion, newVersion)
    ensures listener.Null? ==> r.Rebuilt? && r.creates == OnCreate(reg)
    ensures listener.Null? ==> forall t :: t in db && t != SEQUENCE_TABLE ==> DROP_TABLE_HEAD + t in r.drops
    ensures listener.Null? ==> DROP_TABLE_HEAD + SEQUENCE_TABLE !in r.drops
  {
    match listener
    case Ref(l) => DelegatedToListener(l, oldVersion, newVersion)
    case Null =>
      SequenceTableNotDropped(db);
      Rebuilt(DropStatements(db), OnCreate(reg), ExecuteCreate(ExecuteDrops(db), reg))
  }

  /** The default upgrade wipes the database: afterwards the tables are the
      daos' tables, freshly created, plus `sqlite_sequence`, which is there
      when it was there before or when some table was created; every earlier
      table other than `sqlite_sequence` was dropped. */
  lemma DefaultUpgradeRebuilds(db: set<string>, reg: Registry, oldVersion: int32, newVersion: int32)
    requires forall c :: c in reg ==> CreateTableSql.IsIdentifier(c.simpleName)
    requires forall c :: c in reg ==> CreateTableSql.IdentifierColumns(reg[c].columnInfos)
    ensures OnUpgrade(db, reg, Null, oldVersion, newVersion).tables ==
            (db * {SEQUENCE_TABLE}) + DaoTables(reg) +
            SequenceTableIfCreating(reg)
    ensures forall t :: t in db && t != SEQUENCE_TABLE ==> DROP_TABLE_HEAD + t in OnUpgrade(db, reg, Null, oldVersion, newVersion).drops
  {
    ExecuteCreateTables(ExecuteDrops(db), reg);
    assert ExecuteDrops(db) == db * {SEQUENCE_TABLE};
  }

  /** After the default upgrade `sqlite_sequence` exists exactly when it
      existed before or some dao has columns. */
  lemma DefaultUpgradeSequenceTable(db: set<string>, reg: Registry, oldVersion: int32, newVersion: int32)
    requires forall c :: c in reg ==> CreateTableSql.IsIdentifier(c.simpleName)
    requires forall c :: c in reg ==> CreateTableSql.IdentifierColumns(reg[c].columnInfos)
    ensures SEQUENCE_TABLE in OnUpgrade(db, reg, Null, oldVersion, newVersion).tables <==>
            SEQUENCE_TABLE in db || TableDaos(reg) != {}
  {
    ExecuteCreateTables(ExecuteDrops(db), reg);
  }

  /** Each drop statement names exactly one listed table. */
  lemma DropStatementsNameListedTables(db: set<string>, s: string)
    ensures s in DropStatements(db) <==> DROP_TABLE_HEAD <= s && s[|DROP_TABLE_HEAD|..] in ListedTables(db)
  {
    if DROP_TABLE_HEAD <= s && s[|DROP_TABLE_HEAD|..] in ListedTables(db) {
      assert s == DROP_TABLE_HEAD + s[|DROP_TABLE_HEAD|..];
    }
    if s in DropStatements(db) {
      var t :| t in ListedTables(db) && s == DROP_TABLE_HEAD + t;
      assert s[|DROP_TABLE_HEAD|..] == t;
    }
  }
}

=== FILE: jacky_entity.dfy ===
/** `JackyEntity`: the record every mapped row carries, a row identifier and
    an update timestamp, with its getter/setter pairs. */
module JackyEntity {
  import opened Java

  datatype Entity = Entity(id: int32, updateTime: Nullable<string>)

  /** `get_id()`. */
  function GetId(e: Entity): (r: int32)
    ensures e == Entity(r, e.updateTime)
  {
    e.id
  }

  /** `getUpdateTime()`. */
  function GetUpdateTime(e: Entity): (r: Nullable<string>)
    ensures e == Entity(e.id, r)
  {
    e.updateTime
  }

  /** The no-argument constructor: identifier 0, no timestamp. */
  function NewEntity(): (e: Entity)
    ensures GetId(e) == 0 && GetUpdateTime(e) == Null
  {
    Entity(0, Null)
  }

  /** `set_id(x)`: a later `get_id()` yields `x`; the timestamp is untouched. */
  function SetId(e: Entity, x: int32): (r: Entity)
    ensures GetId(r) == x
    ensures GetUpdateTime(r) == GetUpdateTime(e)
  {
    e.(id := x)
  }

  /** `setUpdateTime(s)`: a later `getUpdateTime()` yields `s`; the identifier
      is untouched. */
  function SetUpdateTime(e: Entity, s: Nullable<string>): (r: Entity)
    ensures GetUpdateTime(r) == s
    ensures GetId(r) == GetId(e)
  {
    e.(updateTime := s)
  }

  /** The two setters act on disjoint fields, so their order does not matter;
      a second call to the same setter overrides the first; and setting a
      field to the value it holds changes nothing. */
  lemma SettersCommuteAndOverride(e: Entity, x: int32, y: int32, s: Nullable<string>, t: Nullable<string>)
    ensures SetUpdateTime(SetId(e, x), s) == SetId(SetUpdateTime(e, s), x)
    ensures SetId(SetId(e, x), y) == SetId(e, y)
    ensures SetUpdateTime(SetUpdateTime(e, s), t) == SetUpdateTime(e, t)
    ensures SetId(e, GetId(e)) == e && SetUpdateTime(e, GetUpdateTime(e)) == e
  {
  }
}

=== FILE: java.dfy ===
/** Conventions of the Java platform that the library relies on: nullable
    references, the width of `int`, the UTF-16 length of a string, and what
    `StringBuilder.append`
    writes for a string reference. */
module Java {

  /** A Java reference that may be null. */
  datatype Nullable<+T> = Null | Ref(value: T)

  /** Java's 32-bit `int`. */
  newtype int32 = x: int | -0x8000_0000 <= x < 0x8000_0000

  /** Characters from U+10000 up are stored by Java as a surrogate pair. */
  predicate IsSupplementary(c: char)
  {
    c >= '\U{10000}'
  }

  /** `String.length()`: the number of UTF-16 code units, which counts a
      character outside the Basic Multilingual Plane twice. */
  function Utf16Length(s: string): (n: nat)
    ensures |s| <= n <= 2 * |s|
    ensures (forall i :: 0 <= i < |s| ==> !IsSupplementary(s[i])) ==> n == |s|
    decreases |s|
  {
    if s == [] then 0
    else (if IsSupplementary(s[0]) then 2 else 1) + Utf16Length(s[1..])
  }

  /** The text `StringBuilder.append(String)` adds: the string itself, or the
      four letters "null" for a null reference. */
  function AppendText(s: Nullable<string>): (r: string)
    ensures s.Ref? ==> r == s.value
    ensures s.Null? ==> r == "null"
  {
    match s
    case Null => "null"
    case Ref(v) => v
  }
}

=== FILE: schema.dfy ===
/** The column vocabulary shared by the dao and the schema manager: the
    `DataType` enumeration of `JackyDBHelper` and `JackyDao.ColumnInfo` with
    its name-only `equals` and length-based `hashCode`. */
module Schema {
  import opened Java

  datatype DataType = INTEGER | REAL | TEXT

  /** The SQL type word each enumeration constant carries. */
  function SqlName(t: DataType): (r: string)
    ensures r in {"INTEGER", "REAL", "TEXT"}
  {
    match t
    case INTEGER => "INTEGER"
    case REAL => "REAL"
    case TEXT => "TEXT"
  }

  /** Different constants carry different type words. */
  lemma SqlNameInjective(s: DataType, t: DataType)
    ensures SqlName(s) == SqlName(t) ==> s == t
  {
  }

  /** Reads a SQL type word back into the enumeration. */
  function DataTypeOf(word: string): (r: Nullable<DataType>)
    ensures r.Ref? ==> SqlName(r.value) == word
    ensures forall t: DataType :: SqlName(t) == word ==> r == Ref(t)
  {
    if word == "INTEGER" then Ref(INTEGER)
    else if word == "REAL" then Ref(REAL)
    else if word == "TEXT" then Ref(TEXT)
    else Null
  }

  /** One declared column. The name is nullable as in the source's public
      constructor; the dao only ever stores columns with a non-empty name. */
  datatype ColumnInfo = ColumnInfo(columnName: Nullable<string>, dataType: DataType, isAllowNull: bool)

  /** `ColumnInfo.equals(obj)`: false for null and for an argument whose name is
      null; otherwise the names are compared as strings. Type and nullability
      play no part. */
  function ColumnEquals(self: ColumnInfo, obj: Nullable<ColumnInfo>): (r: bool)
    ensures r ==> obj.Ref? && obj.value.columnName.Ref?
    ensures obj.Ref? && obj.value.columnName.Ref? ==> (r <==> self.columnName == obj.value.columnName)
  {
    if obj.Null? then false
    else if obj.value.columnName.Null? then false
    else obj.value.columnName == self.columnName
  }

  /** `ColumnInfo.hashCode()`: -1 for a null name, else the name's
      `String.length()`, its count of UTF-16 code units. */
  function ColumnHashCode(c: ColumnInfo): (r: int32)
    requires c.columnName.Ref? ==> Utf16Length(c.columnName.value) < 0x8000_0000
    ensures r == -1 <==> c.columnName.Null?
    ensures c.columnName.Ref? ==> r as int == Utf16Length(c.columnName.value)
    ensures c.columnName.Ref? ==> |c.columnName.value| <= r as int <= 2 * |c.columnName.value|
  {
    if c.columnName.Null? then -1 else Utf16Length(c.columnName.value) as int32
  }

  /** A character outside the Basic Multilingual Plane counts twice: a column
      named by one emoji hashes to 2. */
  lemma HashCountsUtf16Units()
    ensures ColumnHashCode(ColumnInfo(Ref("\U{1F600}"), TEXT, false)) == 2
  {
    assert Utf16Length("\U{1F600}"[1..]) == 0;
  }

  /** `hashCode` is consistent with `equals`: equal columns hash alike. */
  lemma HashConsistentWithEquals(a: ColumnInfo, b: ColumnInfo)
    requires a.columnName.Ref? ==> Utf16Length(a.columnName.value) < 0x8000_0000
    requires b.columnName.Ref? ==> Utf16Length(b.columnName.value) < 0x8000_0000
    requires ColumnEquals(a, Ref(b))
    ensures ColumnHashCode(a) == ColumnHashCode(b)
  {
  }

  /** Columns that share a non-null name are equal whatever their types and
      nullability, and the relation is symmetric between such columns. */
  lemma EqualsByNameOnly(a: ColumnInfo, b: ColumnInfo)
    requires a.columnName.Ref? && b.columnName.Ref?
    ensures ColumnEquals(a, Ref(b)) <==> a.columnName == b.columnName
    ensures ColumnEquals(a, Ref(b)) <==> ColumnEquals(b, Ref(a))
  {
  }

  /** A column whose name is null is not equal even to itself. */
  lemma NullNameNotReflexive(a: ColumnInfo)
    requires a.columnName.Null?
    ensures !ColumnEquals(a, Ref(a))
  {
  }
}

=== FILE: string_utils.dfy ===
/** The string predicates of `StringUtils`: the null-or-empty test and the
    character-by-character comparison behind `equals` and `equalsIgnoreCase`. */
module StringUtils {
  import opened Java

  /** `Character.toUpperCase(char)` on characters of the Basic Multilingual
      Plane, left uninterpreted: every property below holds whatever the case
      mapping is. */
  const ToUpperCase: char -> char

  /** True exactly for the null reference and the empty string. */
  function IsNullOrEmpty(s: Nullable<string>): (r: bool)
    ensures r <==> s in {Null, Ref("")}
  {
    s.Null? || |s.value| == 0
  }

  /** `StringUtils.isEmpty` is not part of this model; it is taken to behave
      like `IsNullOrEmpty`. */
  function IsEmpty(s: Nullable<string>): bool
  {
    IsNullOrEmpty(s)
  }

  /** One position of the comparison: equal characters, or (when case is
      ignored) characters whose upper-case forms are equal. Java scans UTF-16
      units, and upper-casing leaves each half of a surrogate pair unchanged,
      so a character from U+10000 up matches only itself. */
  predicate CharMatch(ignoreCase: bool, c1: char, c2: char)
  {
    c1 == c2 ||
    (ignoreCase && !IsSupplementary(c1) && !IsSupplementary(c2) && ToUpperCase(c1) == ToUpperCase(c2))
  }

  /** Reference definition of the comparison, by recursion on the strings. */
  predicate Matches(ignoreCase: bool, s1: string, s2: string)
    decreases |s1|
  {
    if |s1| != |s2| then false
    else if |s1| == 0 then true
    else CharMatch(ignoreCase, s1[0], s2[0]) && Matches(ignoreCase, s1[1..], s2[1..])
  }

  /** The recursive definition agrees with the position-wise reading. */
  lemma {:induction false} MatchesPointwise(ignoreCase: bool, s1: string, s2: string)
    ensures Matches(ignoreCase, s1, s2) <==>
            (|s1| == |s2| && forall i :: 0 <= i < |s1| ==> CharMatch(ignoreCase, s1[i], s2[i]))
    decreases |s1|
  {
    if |s1| == |s2| && |s1| > 0 {
      MatchesPointwise(ignoreCase, s1[1..], s2[1..]);
      if forall i :: 0 <= i < |s1| ==> CharMatch(ignoreCase, s1[i], s2[i]) {
        forall i | 0 <= i < |s1| - 1
          ensures CharMatch(ignoreCase, s1[1..][i], s2[1..][i])
        {
          assert s1[1..][i] == s1[i + 1];
          assert s2[1..][i] == s2[i + 1];
        }
      }
      if Matches(ignoreCase, s1, s2) {
        forall i | 0 <= i < |s1|
          ensures CharMatch(ignoreCase, s1[i], s2[i])
        {
          if i > 0 {
            assert s1[1..][i - 1] == s1[i];
            assert s2[1..][i - 1] == s2[i];
          }
        }
      }
    }
  }

  /** `isStringMatch`: false when the lengths differ, otherwise a scan that
      stops at the first position that does not match. */
  method IsStringMatch(ignoreCase: bool, s1: string, s2: string) returns (r: bool)
    ensures |s1| != |s2| ==> !r
    ensures r <==> |s1| == |s2| && forall i :: 0 <= i < |s1| ==> CharMatch(ignoreCase, s1[i], s2[i])
    ensures r == Matches(ignoreCase, s1, s2)
  {
    MatchesPointwise(ignoreCase, s1, s2);
    if |s1| != |s2| {
      return false;
    }
    var i := 0;
    while i < |s1|
      invariant 0 <= i <= |s1|
      invariant forall k :: 0 <= k < i ==> CharMatch(ignoreCase, s1[k], s2[k])
    {
      var c1 := s1[i];
      var c2 := s2[i];
      if c1 == c2 {
        i := i + 1;
        continue;
      }
      if ignoreCase && !IsSupplementary(c1) && !IsSupplementary(c2) {
        var u1 := ToUpperCase(c1);
        var u2 := ToUpperCase(c2);
        if u1 == u2 {
          i := i + 1;
          continue;
        }
      }
      return false;
    }
    return true;
  }

  /** Matching strings have the same `String.length()`, so the length test
      Java makes on UTF-16 units rejects no pair the scan would accept. */
  lemma {:induction false} MatchSameUtf16Length(ignoreCase: bool, s1: string, s2: string)
    requires Matches(ignoreCase, s1, s2)
    ensures Utf16Length(s1) == Utf16Length(s2)
    decreases |s1|
  {
    if |s1| > 0 {
      MatchSameUtf16Length(ignoreCase, s1[1..], s2[1..]);
    }
  }

  /** A case-sensitive match is exactly string equality. */
  lemma {:induction false} CaseSensitiveMatchIsEquality(s1: string, s2: string)
    ensures Matches(false, s1, s2) <==> s1 == s2
  {
    MatchesPointwise(false, s1, s2);
    if Matches(false, s1, s2) {
      assert forall i :: 0 <= i < |s1| ==> s1[i] == s2[i];
    }
  }

  /** Every case-sensitive match is also a case-insensitive one. */
  lemma {:induction false} CaseSensitiveImpliesInsensitive(s1: string, s2: string)
    ensures Matches(false, s1, s2) ==> Matches(true, s1, s2)
  {
    MatchesPointwise(false, s1, s2);
    MatchesPointwise(true, s1, s2);
  }

  /** Every string matches itself, with or without case folding. */
  lemma {:induction false} MatchReflexive(ignoreCase: bool, s: string)
    ensures Matches(ignoreCase, s, s)
  {
    MatchesPointwise(ignoreCase, s, s);
  }

  /** The comparison is symmetric in its two strings. */
  lemma {:induction false} MatchSymmetric(ignoreCase: bool, s1: string, s2: string)
    ensures Matches(ignoreCase, s1, s2) <==> Matches(ignoreCase, s2, s1)
  {
    MatchesPointwise(ignoreCase, s1, s2);
    MatchesPointwise(ignoreCase, s2, s1);
  }

  /** `equals` as written: a reference test, then `isStringMatch(false, s2, s2)`,
      which compares `s2` with itself. (Reference identity is modelled by value
      equality; both readings give the same answer here.) */
  function Equals(s1: Nullable<string>, s2: Nullable<string>): (r: bool)
    ensures r <==> (s1.Null? <==> s2.Null?)
  {
    if s1 == s2 then true
    else if s1.Ref? && s2.Ref? then
      MatchReflexive(false, s2.value);
      Matches(false, s2.value, s2.value)
    else false
  }

  /** `equalsIgnoreCase` as written: the same shape with case folding on. */
  function EqualsIgnoreCase(s1: Nullable<string>, s2: Nullable<string>): (r: bool)
    ensures r <==> (s1.Null? <==> s2.Null?)
  {
    if s1 == s2 then true
    else if s1.Ref? && s2.Ref? then
      MatchReflexive(true, s2.value);
      Matches(true, s2.value, s2.value)
    else false
  }

  /** Two different non-null strings are reported equal by `equals` and by
      `equalsIgnoreCase`. */
  lemma EqualsAcceptsDifferentStrings()
    ensures Equals(Ref("a"), Ref("b"))
    ensures EqualsIgnoreCase(Ref("a"), Ref("b"))
    ensures Ref("a") != Ref("b")
  {
  }

  /** `equals` with the comparison the method evidently intends:
      `isStringMatch(false, s1, s2)`. */
  function EqualsIntended(s1: Nullable<string>, s2: Nullable<string>): (r: bool)
    ensures r <==> s1 == s2
  {
    if s1 == s2 then true
    else if s1.Ref? && s2.Ref? then
      CaseSensitiveMatchIsEquality(s1.value, s2.value);
      Matches(false, s1.value, s2.value)
    else false
  }

  /** `equalsIgnoreCase` with the comparison it evidently intends:
      `isStringMatch(true, s1, s2)`. */
  function EqualsIgnoreCaseIntended(s1: Nullable<string>, s2: Nullable<string>): (r: bool)
    ensures s1.Ref? && s2.Ref? ==> (r <==> Matches(true, s1.value, s2.value))
    ensures s1.Null? || s2.Null? ==> (r <==> s1 == s2)
    ensures EqualsIntended(s1, s2) ==> r
  {
    if s1 == s2 then
      (if s1.Ref? then MatchReflexive(true, s1.value); true else true)
    else if s1.Ref? && s2.Ref? then
      Matches(true, s1.value, s2.value)
    else false
  }
}
